=== FILE: README.md ===
# Earnings watch — a Dafny model of its decision logic

The earnings-watch desktop app lets a user keep a list of companies. For each one it:

- looks up the next earnings date and whether results come before the open or after the close;
- shows the list as a date-sorted table and as marks on a calendar;
- reminds the user on the day;
- finds the latest earnings PDF on the company's investor-relations page, downloads it, and charts the twelve most frequent words in it.

This project models the decision logic behind those features as pure Dafny functions and proves what each one promises. Module by module:

- `Analysis` (app/services/analysis_service.py) covers the word-frequency pipeline:
  - it reads the first ten pages; a page without text counts as empty;
  - it lower-cases the text, splits it on whitespace and keeps only the letters of each token;
  - it drops words shorter than four letters and stop words;
  - the result is `Counter.most_common(12)`, which is a stable sort by count of the tally in first-seen order;
  - the chart is named after the upper-cased ticker.
- `DataProvider` (app/services/data_provider.py) covers `fetch_earnings_info`:
  - the company-name fallback;
  - the call-time classifier;
  - the date fallback chain: calendar date, then `earningsTimestamp`, then `earningsTimestampStart`, then "N/A";
  - the upper-cased ticker.
- `PdfService` (app/services/pdf_service.py) covers `download_latest_pdf`:
  - the link test (`.pdf` in the address and a keyword in the text joined to the address);
  - selection of the first qualifying link;
  - sanitising the ticker into the file name.
- `Models` (app/models.py) covers the `WatchItem` record, its dictionary form and `set_updated_now`.
- `Watchlist` (app/main.py) covers the list logic:
  - adding a company replaces any item with the same ticker;
  - a refresh skips failures and counts successes;
  - the table order;
  - the calendar, day-view and notification filters;
  - recording a downloaded PDF.
- Shared modules:
  - `PyValues` holds `Option`, `Result`, Python truthiness of an optional string and `s or ""`;
  - `Text` holds ASCII case mapping, `strip`, `split`, `join` and substring search;
  - `StableSort` holds a stable insertion sort over a total preorder, with its sortedness, permutation and stability lemmas.

External calls are function parameters:

- the market-data lookup, the date parser and the timestamp formatter;
- fetching the page and the PDF, and `urljoin`;
- the provider as main.py sees it;
- the clock;
- the download and analysis services.

A parameter that returns None, or `Raised`, stands for a call that raised an exception.

## Model

| member | source | states |
|---|---|---|
| Analysis.PageTexts | app/services/analysis_service.py:24-27 | the first ten pages are read, all of them when there are fewer; a page without text reads as empty |
| Analysis.OnlyLeadingPagesCount | app/services/analysis_service.py:26 | pages after the tenth never change the words counted |
| Analysis.MissingPageIsEmpty | app/services/analysis_service.py:27 | a page with no extractable text gives the same words as an empty page |
| Analysis.Letters | app/services/analysis_service.py:31 | a cleaned token holds only letters, is no longer than the token, equals it exactly when the token is all letters, and is empty when the token has no letter |
| Analysis.LettersOfOne | app/services/analysis_service.py:31 | a single character is kept exactly when it is a letter: with the append law this fixes the cleaned token as the token's letters in order |
| Analysis.LettersAppend | app/services/analysis_service.py:31 | cleaning keeps the letters in place wherever the other characters stand: the letters of a concatenation are the letters of each part |
| Analysis.KeepWords | app/services/analysis_service.py:30-33 | every kept word passes the length and stop-word test, and every token whose letters pass it contributes those letters |
| Analysis.KeepWordsOfOne | app/services/analysis_service.py:31-33 | one token contributes its letters exactly when they pass the length and stop-word test, and nothing otherwise |
| Analysis.KeepWordsAppend | app/services/analysis_service.py:30-33 | the word filter works token by token and keeps token order |
| Analysis.KeepWordsLower | app/services/analysis_service.py:14-33 | every kept word has at least four letters, is not a stop word, and is all lower-case letters |
| Analysis.Words | app/services/analysis_service.py:29-33 | every retained word of the document is countable: four letters or more, not a stop word, lower-case letters only; and the letters of every token of the lower-cased joined text that pass the test are retained |
| Analysis.WordsPerPage | app/services/analysis_service.py:30 | joining pages with a space never glues words together: the document's words are each page's words in page order |
| Analysis.Tally | app/services/analysis_service.py:38 | the counter holds exactly the words seen, each with its number of occurrences, in order of first occurrence |
| Analysis.Ranking | app/services/analysis_service.py:38 | all words with exact counts, counts non-increasing, equal counts in first-seen order |
| Analysis.MostCommon | app/services/analysis_service.py:38-40 | at most twelve distinct words with exact counts; counts non-increasing, ties in first-seen order; every omitted word is outranked by every listed one, and only when the list is full |
| Analysis.TopTwoOfTie | app/services/analysis_service.py:38 | two words tied for the top count ahead of all others are listed both, the one seen first leading |
| Analysis.ChartFileName | app/services/analysis_service.py:51 | the chart file name is the upper-cased ticker, with no lower-case letter, followed by "_word_freq.png" and nothing else |
| Analysis.ChartFileNameByTicker | app/services/analysis_service.py:51 | two tickers share a chart file exactly when their upper-case forms agree |
| Analysis.BuildWordFrequencyChart | app/services/analysis_service.py:23-40 | no chart exactly when no word is retained; otherwise one to twelve bars, in a file named after the ticker |
| Analysis.ChartBarsRanked | app/services/analysis_service.py:38-40 | every bar is a countable word with its exact number of occurrences; counts do not increase and equal counts are in first-seen order; a retained word is left off only when all twelve bars are taken, each by a word that outranks it |
| DataProvider.CompanyName | app/services/data_provider.py:17 | shortName when truthy; else longName when truthy; else the upper-case ticker; never empty for a non-empty ticker |
| DataProvider.ClassifyCallTime | app/services/data_provider.py:30-34 | pre-market exactly when "am" or "before" occurs; post-market exactly when neither does and "pm" or "after" does |
| DataProvider.Usable | app/services/data_provider.py:23 | the calendar is read only when it is present and its `empty` attribute exists and is false; a None calendar or a missing attribute is never read |
| DataProvider.CalendarSession | app/services/data_provider.py:20-34 | the session is unknown without a usable calendar or without a call-time row; with one, it is the classification of the lower-cased call-time text |
| DataProvider.CalendarDate | app/services/data_provider.py:22-28 | the calendar date is absent without a usable calendar, row or value; for a text value it is the parser's date, and a parser rejection fails; only the date parser can make it fail |
| DataProvider.NextEarningsTimestamp | app/services/data_provider.py:38 | the timestamp chosen is truthy exactly when either field is; it is earningsTimestamp when that is truthy, and otherwise a truthy result is earningsTimestampStart |
| DataProvider.TimestampDate | app/services/data_provider.py:36-40 | no metadata date when neither timestamp is truthy; otherwise the formatted date of earningsTimestamp when it is truthy, else of earningsTimestampStart, and a rejected conversion fails |
| DataProvider.FetchEarningsInfo | app/services/data_provider.py:14-45 | a failed lookup fails; on success the ticker is upper-cased, the date is never empty, the company name is the name fallback's, and the session is the calendar's |
| DataProvider.RunChain | app/services/data_provider.py:24-43 | an ordered fallback gives a date some strategy resolved or the fallback, and the fallback when every strategy passes; a first strategy that resolves or raises decides the outcome |
| DataProvider.RunChainSkips | app/services/data_provider.py:24-43 | a first strategy that passes hands over to the rest of the chain |
| DataProvider.DateFollowsChain | app/services/data_provider.py:24-43 | the date is the outcome of the chain calendar date, metadata timestamp, "N/A", and fails exactly when that chain fails |
| DataProvider.CalendarDateWins | app/services/data_provider.py:24-36 | a non-empty calendar date is the result, whatever the timestamps say |
| DataProvider.StartTimestampUsed | app/services/data_provider.py:36-40 | without a calendar date or earningsTimestamp, a truthy earningsTimestampStart that formats to a non-empty date gives that date |
| DataProvider.PrimaryTimestampWins | app/services/data_provider.py:38-40 | without a calendar date a truthy earningsTimestamp is used, not earningsTimestampStart |
| DataProvider.SessionIgnoresMetadata | app/services/data_provider.py:36-40 | the timestamp fallback never changes the session |
| DataProvider.PreMarketDominates | app/services/data_provider.py:31-32 | text classified pre-market stays pre-market whatever is added around it, "pm" or "after" included |
| DataProvider.BeforeOpenIsPreMarket | app/services/data_provider.py:31-32 | "before market open" is pre-market |
| DataProvider.NoAmInAfterMarketClose | app/services/data_provider.py:31 | "after market close" contains no "am" |
| DataProvider.NoBeforeInAfterMarketClose | app/services/data_provider.py:31 | "after market close" contains no "before" |
| DataProvider.AfterInAfterMarketClose | app/services/data_provider.py:33 | "after market close" contains "after" |
| DataProvider.AfterCloseIsPostMarket | app/services/data_provider.py:31-34 | "after market close" is post-market |
| DataProvider.UndecidedIsUnknown | app/services/data_provider.py:31-34 | "tbd" leaves the session unknown |
| DataProvider.SessionIgnoresCase | app/services/data_provider.py:30 | call-time texts equal up to case give the same session |
| PdfService.SearchText | app/services/pdf_service.py:29-31 | the searched text is as long as the stripped link text and the address together, holds no upper-case letter, and ends with the lower-cased address |
| PdfService.Qualifies | app/services/pdf_service.py:30-31 | a qualifying anchor has an address at least as long as ".pdf", and its stripped text and address together have room for the shortest keyword (seven letters) |
| PdfService.QualifiesIgnoresHrefCase | app/services/pdf_service.py:30-31 | the link test ignores the case of the address: lower-casing it first never changes the verdict |
| PdfService.Candidates | app/services/pdf_service.py:26-32 | there are no candidates exactly when no anchor qualifies |
| PdfService.CandidatesAppend | app/services/pdf_service.py:27-32 | candidates keep document order |
| PdfService.CandidatesOfOne | app/services/pdf_service.py:28-32 | one anchor contributes its address, as written, exactly when it qualifies |
| PdfService.CandidateMembership | app/services/pdf_service.py:27-32 | a string is a candidate exactly when it is the address of a qualifying anchor |
| PdfService.SelectPdfLink | app/services/pdf_service.py:34-37 | no link exactly when no anchor qualifies; otherwise the address of the first qualifying anchor |
| PdfService.LogoSearchText | app/services/pdf_service.py:29-31 | the searched text is link text and address joined with no separator |
| PdfService.NoKeywordInLogo | app/services/pdf_service.py:31 | "company logologo.pdf" holds none of the four keywords |
| PdfService.LogoRejected | app/services/pdf_service.py:31 | a logo PDF link without a keyword is rejected |
| PdfService.ReportSearchText | app/services/pdf_service.py:29-31 | the report link's searched text is "q3 resultsreport.pdf" |
| PdfService.PdfMarkerInReport | app/services/pdf_service.py:31 | "report.pdf" contains ".pdf" |
| PdfService.KeywordInReport | app/services/pdf_service.py:31 | "results" occurs in the report link's searched text |
| PdfService.ReportQualifies | app/services/pdf_service.py:31 | a PDF link whose text names results qualifies |
| PdfService.SelectOfTwo | app/services/pdf_service.py:34-37 | of two links the first qualifying one is selected, and none when neither qualifies |
| PdfService.SelectsResultsReport | app/services/pdf_service.py:26-37 | with a logo link and a results report, in either order, the report is selected |
| PdfService.KeywordAcrossTextAndHref | app/services/pdf_service.py:31 | a keyword split between the end of the text and the start of the address still matches |
| PdfService.Sanitize | app/services/pdf_service.py:41 | same length as the ticker; every character is in [A-Za-z0-9_-] and not lower-case; allowed characters of the upper-cased ticker are kept, the others become "_" |
| PdfService.SanitizeIdempotent | app/services/pdf_service.py:41 | sanitising twice is sanitising once |
| PdfService.SanitizeKeepsSafe | app/services/pdf_service.py:41 | an upper-case ticker of allowed characters is left as it is |
| PdfService.SanitizeShareClass | app/services/pdf_service.py:41 | "BRK.B" becomes "BRK_B" |
| PdfService.PdfFileName | app/services/pdf_service.py:41-42 | the file name begins with the sanitised ticker and ends with "_latest_earnings.pdf", and has nothing else |
| PdfService.ShareClassFileName | app/services/pdf_service.py:41-42 | "BRK.B" is saved as "BRK_B_latest_earnings.pdf" |
| PdfService.SameFileName | app/services/pdf_service.py:41-43 | two tickers write the same file exactly when they sanitise alike |
| PdfService.DistinctTickersShareFile | app/services/pdf_service.py:41-43 | "BRK.B" and "brk/b" overwrite each other's file |
| PdfService.DownloadLatestPdf | app/services/pdf_service.py:20-44 | the download fails on a page fetch exactly when the page fetch fails; no file exactly when no anchor qualifies; a file is written whenever the page, a qualifying link and its PDF are all fetched, and then it has the ticker's file name and the content fetched from the first candidate resolved against the page |
| PdfService.NoCandidateNoDownload | app/services/pdf_service.py:34-35 | without a qualifying link nothing is fetched: the outcome is the same whatever the PDF fetch would do |
| Models.NewWatchItem | app/models.py:10-16 | ir_url, last_pdf_path and updated_at default to None |
| Models.ToDict | app/models.py:18-19 | the dictionary has exactly the seven field names, and the non-optional fields are strings |
| Models.FirstMissing | app/models.py:21-23 | a missing required field is reported exactly when some required field is absent |
| Models.HasRequiredFields | app/models.py:10-13 | a dictionary has the required fields exactly when it has the four fields without a default |
| Models.FromDict | app/models.py:21-23 | loading succeeds exactly when every key is a field, every field without a default is present and the plain fields are strings; an unknown key is reported exactly when there is one |
| Models.ToFromDict | app/models.py:18-23 | a loaded record saves back to the same entries, with null for optional fields left out |
| Models.FromToDict | app/models.py:18-23 | loading a saved record gives it back, None fields included |
| Models.ToDictInjective | app/models.py:18-19 | distinct records have distinct dictionaries |
| Models.SetUpdatedNow | app/models.py:25-26 | only updated_at changes, and it is set to the current time |
| Watchlist.NormalizeTicker | app/main.py:125-126 | the typed ticker is the upper-cased stripped input: no surrounding whitespace and no lower case; it is empty exactly when the input is all whitespace |
| Watchlist.NormalizeTickerIdempotent | app/main.py:125 | normalising a normalised ticker changes nothing |
| Watchlist.ProviderEchoesTicker | app/services/data_provider.py:45 | the provider returns a normalised ticker unchanged |
| Watchlist.Without | app/main.py:135 | the filtered list is no longer and has no item with the ticker |
| Watchlist.WithoutMembership | app/main.py:135 | an item survives the filter exactly when it is in the list with another ticker |
| Watchlist.WithoutOthers | app/main.py:135 | items with other tickers are all kept |
| Watchlist.CountTicker | app/main.py:135 | no item has the ticker exactly when the count is zero |
| Watchlist.NewEntry | app/main.py:132-134 | the new record carries the provider's answer, the stripped IR address or None, no PDF, and the current time |
| Watchlist.AddItem | app/main.py:124-140 | an empty ticker or a failed lookup leaves the list unchanged; otherwise the other items in order, then the new record |
| Watchlist.AddItemUpserts | app/main.py:135 | after a successful add exactly one item has the ticker, it is last, and the other items are unchanged in order |
| Watchlist.ReAddForgetsPdf | app/main.py:133-135 | the added item records no PDF; when the provider echoes the ticker, no item with the ticker records one, so a PDF recorded before the re-add is forgotten |
| Watchlist.Refresh | app/main.py:146-150 | a refreshed item keeps ticker, IR address and PDF path, and takes name, date, session and time from the answer |
| Watchlist.RefreshOne | app/main.py:145-153 | a failed lookup leaves the item untouched; a successful one refreshes it |
| Watchlist.CountResolved | app/main.py:151-157 | the number of refreshed tickers never exceeds the number of items |
| Watchlist.CountResolvedExtremes | app/main.py:143-157 | the count is zero exactly when every lookup fails, and the list length exactly when every lookup succeeds |
| Watchlist.RefreshAll | app/main.py:142-157 | the list keeps its length and order; each item is refreshed or untouched as its lookup succeeds or fails; the count is the number of successful lookups |
| Watchlist.SortKey | app/main.py:164 | the table key is never empty; a dated item sorts under its date; the key is "9999-99-99" exactly when the item is undated or dated "9999-99-99" |
| Watchlist.LexLeTotal | app/main.py:164 | string comparison is total |
| Watchlist.LexLeTransitive | app/main.py:164 | string comparison is transitive |
| Watchlist.LexLeAntisymmetric | app/main.py:164 | strings each no greater than the other are equal |
| Watchlist.ByDateTotalPreorder | app/main.py:164 | ordering by sort key is a total preorder |
| Watchlist.TiedIffSameKey | app/main.py:164 | two items tie in the table order exactly when their sort keys are equal |
| Watchlist.TableRows | app/main.py:164 | the table lists each item exactly as often as the list holds it |
| Watchlist.TableRowsOrdered | app/main.py:164 | rows are in order of their sort key (the date, or "9999-99-99" when undated), and tied rows keep list order |
| Watchlist.UndatedKeyIsDigits | app/main.py:164 | an undated item sorts under a key that starts with a digit |
| Watchlist.DigitKeysBeforeNotAvailable | app/main.py:164 | an item whose key starts with a digit, undated items included, sorts strictly before an item dated "N/A" |
| Watchlist.HasCalendarEvent | app/main.py:172 | a marked item has a date, sorts under it, and that date is not "N/A"; an undated item or one dated "N/A" gets no mark |
| Watchlist.CalendarEvents | app/main.py:169-173 | there are no marks exactly when no item has a date other than "N/A" |
| Watchlist.CalendarEventsExact | app/main.py:171-173 | every dated item gets its mark, and every mark comes from a dated item, with that item's date, its ticker and session as text, and its ticker as tag |
| Watchlist.ItemsOn | app/main.py:177-186 | every selected item falls on the day |
| Watchlist.ItemsOnMembership | app/main.py:177-186 | an item is selected exactly when it is listed and falls on the day |
| Watchlist.ItemsOnAppend | app/main.py:177-186 | the filter keeps list order |
| Watchlist.FindTicker | app/main.py:201 | the first item with the ticker, or none |
| Watchlist.DownloadedPath | app/main.py:202-212 | a path is stored exactly when the ticker is non-empty, its first item has an IR address, the download of that address returned a non-empty path and its analysis did not raise; the path is the one returned |
| Watchlist.RecordDownload | app/main.py:195-219 | with an empty ticker, no such item or no IR address nothing changes; only the first item with the ticker may change, and only its PDF path, set to the non-empty path the download returned when the analysis did not raise |
| Watchlist.DownloadRecorded | app/main.py:206-212 | when the download returns a path and the analysis does not raise, the first item with the ticker has that path recorded and nothing else changes |
| Watchlist.NothingRecordedOnFailure | app/main.py:206-212 | a download that raises or returns no path, or an analysis that raises, records nothing |
| StableSort.SortSorted | app/main.py:164 | the sort orders any list under a total preorder |
| StableSort.SortKeepsTies | app/main.py:164 | the items tied with any given item keep their relative order |
| StableSort.SortTiesByRank | app/services/analysis_service.py:38 | when the input's ties are ranked, the output's ties are ranked the same way |

Four behaviours of the code are worth stating plainly:

- `fetch_earnings_info` queries the market data with the ticker as given and upper-cases only the ticker it returns. `_add_item` passes the upper-cased input. `_refresh_all` passes the stored ticker, which is upper-case unless the file was edited by hand. `DataProvider.FetchEarningsInfo` promises an upper-case ticker only in its result.
- The earnings date is whatever the date parser or timestamp formatter returns, when non-empty, or "N/A". The parser and the formatter are function parameters here, so the model promises only a non-empty date, not a particular format.
- The provider always builds one of three session labels (`Session.Label`). A record loaded from the JSON file keeps whatever session string the file holds.
- `_add_item` keeps tickers unique, but a loaded file may repeat a ticker. `_download_and_analyze` then updates the first match, and so does `Watchlist.RecordDownload`.

## Left out

- Reading PDFs (pypdf), drawing and saving the chart (matplotlib), the HTTP requests, HTML parsing, `urljoin`, yfinance, dateutil and `datetime.fromtimestamp`: these are library calls. They are function parameters, or for pypdf the page texts are the input.
- The output directories and `Path` joining: only the file names are modelled.
- Writing the PDF bytes to disk, and reading and writing watchlist.json (`_load_data`, `_save_data`): these are file I/O. The record-to-dictionary step they use is `Models.ToDict`/`Models.FromDict`.
- The clock: `set_updated_now` and the refresh take the formatted time as a parameter, and the notification check takes today's date as the day to filter on.
- Tk/customtkinter widgets, message boxes, the calendar widget, table row formatting, the day-view and notification texts, plyer notifications and the 25-second timer: these are rendering and scheduling.
- Text handling is ASCII only. Python's Unicode `lower`, `upper`, `isalpha` and whitespace classes are restricted to their ASCII behaviour. On non-ASCII input `upper()` can also change a string's length.
- Models.FromDict: values are null or strings only. Other JSON types that `WatchItem(**value)` would accept unchecked (numbers, lists) are not modelled. A null in `ticker`, `company_name` or `market_session` is rejected (`NullField`), whereas the dataclass would accept it.
- Models.FromDict: an unknown key is reported without its name, because a map has no order from which to pick the first one.
- DataProvider.FetchEarningsInfo: every failure inside the lookup is one outcome (`LookupFailed`). The model does not distinguish which yfinance attribute raised.
- Analysis.BuildWordFrequencyChart: the plot's title, colours and resolution are not modelled.

=== FILE: analysis.dfy ===
/** The word-frequency part of `PdfAnalysisService.build_word_frequency_chart`
    (app/services/analysis_service.py): the text of at most the first ten
    pages is joined, lower-cased and split on whitespace; each token keeps only
    its letters; words shorter than four letters and stop words are dropped;
    the twelve most common remaining words, ties in first-seen order, become
    the bars of a chart saved under a per-ticker file name. */
module Analysis {
  import opened PyValues
  import opened Text
  import StableSort

  /** Only this many leading pages are read. */
  const PageLimit: nat := 10
  /** `Counter.most_common(12)` */
  const TopCount: nat := 12
  /** A kept word has at least this many letters. */
  const MinWordLength: nat := 4
  const ChartSuffix: string := "_word_freq.png"

  const StopWords: set<string> := {
    "the", "and", "to", "of", "in", "for", "a", "is", "on", "with",
    "our", "we", "that", "as", "this", "be", "by", "at", "are", "from"
  }

  /** The text of each page read: the first ten pages, a page without
      extractable text (None) giving "". */
  function PageTexts(pages: seq<Option<string>>): (r: seq<string>)
    ensures |r| <= PageLimit && |r| <= |pages|
    ensures |r| == PageLimit || |r| == |pages|
    ensures forall i | 0 <= i < |r| :: r[i] == if pages[i].Some? then pages[i].value else ""
  {
    var n := if |pages| < PageLimit then |pages| else PageLimit;
    seq(n, i requires 0 <= i < n => OrEmpty(pages[i]))
  }

  /** A token cleaned for counting: its letters in order, every other
      character dropped. */
  function Letters(t: string): (r: string)
    ensures |r| <= |t|
    ensures forall i | 0 <= i < |r| :: IsAlpha(r[i])
    ensures r == t <==> forall i | 0 <= i < |t| :: IsAlpha(t[i])
    ensures (forall i | 0 <= i < |t| :: !IsAlpha(t[i])) ==> r == []
    decreases |t|
  {
    if t == [] then []
    else (if IsAlpha(t[0]) then [t[0]] else []) + Letters(t[1..])
  }

  /** Removing non-letters works character by character: the cleaned token is
      the subsequence of letters, wherever the other characters stand. */
  lemma {:induction false} LettersAppend(a: string, b: string)
    ensures Letters(a + b) == Letters(a) + Letters(b)
    decreases |a|
  {
    if a == [] {
      assert a + b == b;
    } else {
      assert (a + b)[0] == a[0];
      assert (a + b)[1..] == a[1..] + b;
      LettersAppend(a[1..], b);
    }
  }

  /** One character is kept exactly when it is a letter; with
      `LettersAppend` this fixes the cleaned form of every token. */
  lemma LettersOfOne(c: char)
    ensures Letters([c]) == if IsAlpha(c) then [c] else []
  {
    assert [c][1..] == [];
  }

  lemma LettersOfLower(t: string)
    requires forall i | 0 <= i < |t| :: !IsUpper(t[i])
    ensures forall i | 0 <= i < |Letters(t)| :: IsLower(Letters(t)[i])
    decreases |t|
  {
    if t != [] {
      LettersOfLower(t[1..]);
    }
  }

  /** The filter applied to each cleaned token. */
  predicate Retained(w: string) {
    |w| >= MinWordLength && w !in StopWords
  }

  /** A word the chart may count: long enough, not a stop word, lower-case letters only. */
  ghost predicate CountableWord(w: string) {
    Retained(w) && forall i | 0 <= i < |w| :: IsLower(w[i])
  }

  /** Cleans each token and keeps those that pass the filter, in order. */
  function KeepWords(tokens: seq<string>): (r: seq<string>)
    ensures |r| <= |tokens|
    ensures forall w | w in r :: Retained(w)
    ensures forall i | 0 <= i < |tokens| && Retained(Letters(tokens[i])) :: Letters(tokens[i]) in r
    decreases |tokens|
  {
    if tokens == [] then []
    else
      var w := Letters(tokens[0]);
      var rest := KeepWords(tokens[1..]);
      assert forall i | 1 <= i < |tokens| :: tokens[i] == tokens[1..][i - 1];
      (if Retained(w) then [w] else []) + rest
  }

  /** One token gives its cleaned form when that passes the filter, nothing
      otherwise; with `KeepWordsAppend` this fixes the words of every token list. */
  lemma KeepWordsOfOne(t: string)
    ensures KeepWords([t]) == if Retained(Letters(t)) then [Letters(t)] else []
  {
    assert [t][1..] == [];
  }

  lemma {:induction false} KeepWordsAppend(a: seq<string>, b: seq<string>)
    ensures KeepWords(a + b) == KeepWords(a) + KeepWords(b)
    decreases |a|
  {
    if a == [] {
      assert a + b == b;
    } else {
      assert (a + b)[0] == a[0];
      assert (a + b)[1..] == a[1..] + b;
      KeepWordsAppend(a[1..], b);
    }
  }

  /** Every kept word passes the filter and, when the tokens carry no
      upper-case letter, consists of lower-case letters only. */
  lemma {:induction false} KeepWordsLower(tokens: seq<string>)
    requires forall t | t in tokens :: forall i | 0 <= i < |t| :: !IsUpper(t[i])
    ensures forall w | w in KeepWords(tokens) :: CountableWord(w)
    decreases |tokens|
  {
    if tokens != [] {
      var w := Letters(tokens[0]);
      LettersOfLower(tokens[0]);
      KeepWordsLower(tokens[1..]);
      assert KeepWords(tokens) == (if Retained(w) then [w] else []) + KeepWords(tokens[1..]);
    }
  }

  /** The words of one page's text. */
  function PageWords(text: string): seq<string> {
    KeepWords(Split(Lower(text)))
  }

  /** The retained words of the document: the page texts joined with spaces,
      lower-cased and split on whitespace, each token cleaned and filtered. */
  function Words(pages: seq<Option<string>>): (r: seq<string>)
    ensures forall w | w in r :: CountableWord(w)
    ensures var tokens := Split(Lower(Join(PageTexts(pages), " ")));
      forall i | 0 <= i < |tokens| && Retained(Letters(tokens[i])) :: Letters(tokens[i]) in r
  {
    var text := Lower(Join(PageTexts(pages), " "));
    SplitKeepsCase(text);
    KeepWordsLower(Split(text));
    KeepWords(Split(text))
  }

  lemma SplitKeepsCase(s: string)
    requires forall i | 0 <= i < |s| :: !IsUpper(s[i])
    ensures forall t | t in Split(s) :: forall i | 0 <= i < |t| :: !IsUpper(t[i])
    decreases |s|
  {
    if s != [] {
      if IsSpace(s[0]) {
        SplitKeepsCase(s[1..]);
      } else {
        SplitKeepsCase(s[WordEnd(s)..]);
        SplitAtWord(s);
      }
    }
  }

  lemma {:induction false} LowerJoin(ts: seq<string>)
    ensures Lower(Join(ts, " ")) == Join(seq(|ts|, i requires 0 <= i < |ts| => Lower(ts[i])), " ")
    decreases |ts|
  {
    var ls := seq(|ts|, i requires 0 <= i < |ts| => Lower(ts[i]));
    if |ts| > 1 {
      LowerJoin(ts[1..]);
      assert ls[1..] == seq(|ts[1..]|, i requires 0 <= i < |ts[1..]| => Lower(ts[1..][i]));
      LowerAppend(ts[0] + " ", Join(ts[1..], " "));
      LowerAppend(ts[0], " ");
    }
  }

  lemma {:induction false} KeepWordsFlatten(xss: seq<seq<string>>)
    ensures KeepWords(Flatten(xss)) == Flatten(seq(|xss|, i requires 0 <= i < |xss| => KeepWords(xss[i])))
    decreases |xss|
  {
    var ks := seq(|xss|, i requires 0 <= i < |xss| => KeepWords(xss[i]));
    if xss != [] {
      KeepWordsAppend(xss[0], Flatten(xss[1..]));
      KeepWordsFlatten(xss[1..]);
      assert ks[1..] == seq(|xss[1..]|, i requires 0 <= i < |xss[1..]| => KeepWords(xss[1..][i]));
    }
  }

  /** Joining the pages with a space never glues words of two pages together:
      the document's words are the words of each page read, page after page. */
  lemma WordsPerPage(pages: seq<Option<string>>)
    ensures var texts := PageTexts(pages);
      Words(pages) == Flatten(seq(|texts|, i requires 0 <= i < |texts| => PageWords(texts[i])))
  {
    var texts := PageTexts(pages);
    var lowered := seq(|texts|, i requires 0 <= i < |texts| => Lower(texts[i]));
    var tokens := seq(|lowered|, i requires 0 <= i < |lowered| => Split(lowered[i]));
    LowerJoin(texts);
    assert Lower(Join(texts, " ")) == Join(lowered, " ");
    SplitJoin(lowered);
    assert Split(Join(lowered, " ")) == Flatten(tokens);
    KeepWordsFlatten(tokens);
    assert Words(pages) == KeepWords(Flatten(tokens));
    assert seq(|tokens|, i requires 0 <= i < |tokens| => KeepWords(tokens[i]))
        == seq(|texts|, i requires 0 <= i < |texts| => PageWords(texts[i]));
  }

  /** Pages after the tenth never change the words counted. */
  lemma OnlyLeadingPagesCount(pages: seq<Option<string>>, more: seq<Option<string>>)
    requires |pages| >= PageLimit
    ensures Words(pages + more) == Words(pages)
  {
    assert PageTexts(pages + more) == PageTexts(pages);
  }

  /** A page whose text cannot be extracted counts as an empty page. */
  lemma MissingPageIsEmpty(pages: seq<Option<string>>, i: nat)
    requires i < |pages|
    ensures Words(pages[i := None]) == Words(pages[i := Some("")])
  {
    assert PageTexts(pages[i := None]) == PageTexts(pages[i := Some("")]);
  }

  /** Position of the first occurrence of `x` in `s` (`|s|` when absent). */
  function IndexOf<T(==)>(s: seq<T>, x: T): (k: nat)
    ensures k <= |s|
    ensures k < |s| <==> x in s
    ensures k < |s| ==> s[k] == x
    ensures forall i | 0 <= i < k :: s[i] != x
    decreases |s|
  {
    if s == [] then 0 else if s[0] == x then 0 else 1 + IndexOf(s[1..], x)
  }

  lemma {:induction false} IndexOfSnoc<T>(p: seq<T>, x: T, y: T)
    ensures y in p ==> IndexOf(p + [x], y) == IndexOf(p, y)
    ensures y !in p && y == x ==> IndexOf(p + [x], y) == |p|
    decreases |p|
  {
    if p == [] {
      assert p + [x] == [x];
    } else {
      assert (p + [x])[0] == p[0];
      assert (p + [x])[1..] == p[1..] + [x];
      IndexOfSnoc(p[1..], x, y);
    }
  }

  /** One word and the number of times it was seen. */
  datatype WordCount = WordCount(word: string, count: nat)

  function WordsOf(tally: seq<WordCount>): (r: seq<string>)
    ensures |r| == |tally|
    ensures forall i | 0 <= i < |tally| :: r[i] == tally[i].word
  {
    seq(|tally|, i requires 0 <= i < |tally| => tally[i].word)
  }

  ghost predicate DistinctWords(tally: seq<WordCount>) {
    forall i, j | 0 <= i < j < |tally| :: tally[i].word != tally[j].word
  }

  /** `r` is `tally` after one more occurrence of `w`: the entries keep their
      words and place, the entry of `w` gains one, and a new word is appended
      with count 1. */
  ghost predicate Bumped(tally: seq<WordCount>, w: string, r: seq<WordCount>) {
    && (w in WordsOf(tally) ==> |r| == |tally|)
    && (w !in WordsOf(tally) ==> |r| == |tally| + 1 && r[|tally|] == WordCount(w, 1))
    && forall i | 0 <= i < |tally| ::
         r[i].word == tally[i].word && r[i].count == tally[i].count + (if tally[i].word == w then 1 else 0)
  }

  /** `counter[w] += 1` on a dictionary kept in insertion order: an existing
      entry is incremented in place, a new word is appended with count 1. */
  function Bump(tally: seq<WordCount>, w: string): (r: seq<WordCount>)
    requires DistinctWords(tally)
    ensures Bumped(tally, w, r)
    decreases |tally|
  {
    if tally == [] then [WordCount(w, 1)]
    else if tally[0].word == w then
      BumpedHead(tally, w);
      [WordCount(w, tally[0].count + 1)] + tally[1..]
    else
      var r := Bump(tally[1..], w);
      BumpedCons(tally, w, r);
      [tally[0]] + r
  }

  /** The entry of `w` is the first one: it gains one, and no later entry names `w`. */
  lemma BumpedHead(tally: seq<WordCount>, w: string)
    requires DistinctWords(tally)
    requires tally != [] && tally[0].word == w
    ensures Bumped(tally, w, [WordCount(w, tally[0].count + 1)] + tally[1..])
  {
    assert w in WordsOf(tally);
  }

  /** The first entry is another word: it stays, and the rest is bumped. */
  lemma BumpedCons(tally: seq<WordCount>, w: string, r: seq<WordCount>)
    requires tally != [] && tally[0].word != w
    requires Bumped(tally[1..], w, r)
    ensures Bumped(tally, w, [tally[0]] + r)
  {
    assert WordsOf(tally) == [tally[0].word] + WordsOf(tally[1..]);
  }

  /** What `Counter` promises of `r` for `words`. */
  ghost predicate TallyOf(words: seq<string>, r: seq<WordCount>) {
    && (forall w :: w in WordsOf(r) <==> w in words)
    && (forall i | 0 <= i < |r| :: r[i].count == multiset(words)[r[i].word])
    && (forall i, j | 0 <= i < j < |r| :: IndexOf(words, r[i].word) < IndexOf(words, r[j].word))
  }

  /** `Counter(words)`: every distinct word once, in order of first
      occurrence, with its number of occurrences. */
  function Tally(words: seq<string>): (r: seq<WordCount>)
    ensures forall w :: w in WordsOf(r) <==> w in words
    ensures forall i | 0 <= i < |r| :: r[i].count == multiset(words)[r[i].word]
    ensures forall i, j | 0 <= i < j < |r| :: IndexOf(words, r[i].word) < IndexOf(words, r[j].word)
    decreases |words|
  {
    if words == [] then []
    else
      var p := words[..|words| - 1];
      var x := words[|words| - 1];
      var t := Tally(p);
      TallyDistinct(p, t);
      var r := Bump(t, x);
      TallyStep(p, x, t, r);
      StableSort.LastSplit(words);
      r
  }

  /** Entries ordered by first occurrence name distinct words. */
  lemma TallyDistinct(p: seq<string>, t: seq<WordCount>)
    requires forall i, j | 0 <= i < j < |t| :: IndexOf(p, t[i].word) < IndexOf(p, t[j].word)
    ensures DistinctWords(t)
  {
    forall i, j | 0 <= i < j < |t| ensures t[i].word != t[j].word {
      assert IndexOf(p, t[i].word) < IndexOf(p, t[j].word);
    }
  }

  /** One more word keeps the tally exact. */
  lemma TallyStep(p: seq<string>, x: string, t: seq<WordCount>, r: seq<WordCount>)
    requires DistinctWords(t)
    requires TallyOf(p, t)
    requires Bumped(t, x, r)
    ensures TallyOf(p + [x], r)
  {
    TallyStepWords(p, x, t, r);
    TallyStepCounts(p, x, t, r);
    TallyStepOrder(p, x, t, r);
  }

  lemma TallyStepWords(p: seq<string>, x: string, t: seq<WordCount>, r: seq<WordCount>)
    requires forall w :: w in WordsOf(t) <==> w in p
    requires Bumped(t, x, r)
    ensures forall w :: w in WordsOf(r) <==> w in p + [x]
  {
    if x in WordsOf(t) {
      assert WordsOf(r) == WordsOf(t);
    } else {
      assert WordsOf(r) == WordsOf(t) + [x];
    }
  }

  lemma TallyStepCounts(p: seq<string>, x: string, t: seq<WordCount>, r: seq<WordCount>)
    requires DistinctWords(t)
    requires forall w :: w in WordsOf(t) <==> w in p
    requires forall i | 0 <= i < |t| :: t[i].count == multiset(p)[t[i].word]
    requires Bumped(t, x, r)
    ensures forall i | 0 <= i < |r| :: r[i].count == multiset(p + [x])[r[i].word]
  {
    assert multiset(p + [x]) == multiset(p) + multiset{x};
    if x !in WordsOf(t) {
      assert x !in p;
    }
  }

  lemma TallyStepOrder(p: seq<string>, x: string, t: seq<WordCount>, r: seq<WordCount>)
    requires forall w :: w in WordsOf(t) <==> w in p
    requires forall i, j | 0 <= i < j < |t| :: IndexOf(p, t[i].word) < IndexOf(p, t[j].word)
    requires Bumped(t, x, r)
    ensures forall i, j | 0 <= i < j < |r| :: IndexOf(p + [x], r[i].word) < IndexOf(p + [x], r[j].word)
  {
    TallyIndexKept(p, x, t);
    if x !in WordsOf(t) {
      TallyNewLast(p, x, t);
    }
  }

  /** Appending a word does not move the first occurrence of a word already seen. */
  lemma TallyIndexKept(p: seq<string>, x: string, t: seq<WordCount>)
    requires forall w :: w in WordsOf(t) <==> w in p
    ensures forall i | 0 <= i < |t| :: IndexOf(p + [x], t[i].word) == IndexOf(p, t[i].word)
  {
    forall i | 0 <= i < |t| ensures IndexOf(p + [x], t[i].word) == IndexOf(p, t[i].word) {
      assert t[i].word in WordsOf(t);
      IndexOfSnoc(p, x, t[i].word);
    }
  }

  /** A word seen for the first time comes after every word seen before. */
  lemma TallyNewLast(p: seq<string>, x: string, t: seq<WordCount>)
    requires forall w :: w in WordsOf(t) <==> w in p
    requires x !in WordsOf(t)
    ensures forall i | 0 <= i < |t| :: IndexOf(p + [x], t[i].word) < IndexOf(p + [x], x)
  {
    IndexOfSnoc(p, x, x);
    forall i | 0 <= i < |t| ensures IndexOf(p + [x], t[i].word) < IndexOf(p + [x], x) {
      assert t[i].word in WordsOf(t);
    }
  }

  /** The ranking order: more occurrences first. */
  predicate CountsNoLess(a: WordCount, b: WordCount) {
    a.count >= b.count
  }

  /** `a` would be listed before `b` by `most_common`: it occurs more often,
      or as often and was seen first. */
  ghost predicate Outranks(words: seq<string>, a: string, b: string) {
    || multiset(words)[a] > multiset(words)[b]
    || (multiset(words)[a] == multiset(words)[b] && IndexOf(words, a) < IndexOf(words, b))
  }

  /** Every entry names a word of `words` with its exact number of occurrences. */
  ghost predicate ExactCounts(words: seq<string>, r: seq<WordCount>) {
    forall i | 0 <= i < |r| :: r[i].word in words && r[i].count == multiset(words)[r[i].word]
  }

  /** Counts never increase along `r`, and equal counts are in first-seen order. */
  ghost predicate RankedByCount(words: seq<string>, r: seq<WordCount>) {
    && (forall i, j | 0 <= i < j < |r| :: r[i].count >= r[j].count)
    && (forall i, j | 0 <= i < j < |r| && r[i].count == r[j].count ::
          IndexOf(words, r[i].word) < IndexOf(words, r[j].word))
  }

  /** All distinct words, most common first, ties in first-seen order:
      `sorted(Counter(words).items(), key=count, reverse=True)`, a stable sort. */
  function Ranking(words: seq<string>): (r: seq<WordCount>)
    ensures ExactCounts(words, r)
    ensures forall w | w in words :: w in WordsOf(r)
    ensures RankedByCount(words, r)
  {
    var tally := Tally(words);
    var rank := (e: WordCount) => IndexOf(words, e.word);
    var r := StableSort.Sort(tally, CountsNoLess);
    StableSort.SortSorted(tally, CountsNoLess);
    StableSort.SortTiesByRank(tally, CountsNoLess, rank);
    RankingOrder(words, r, rank);
    RankingEntries(words, tally, r);
    r
  }

  lemma RankingOrder(words: seq<string>, r: seq<WordCount>, rank: WordCount -> int)
    requires forall e :: rank(e) == IndexOf(words, e.word)
    requires StableSort.Sorted(r, CountsNoLess)
    requires StableSort.TiesByRank(r, CountsNoLess, rank)
    ensures RankedByCount(words, r)
  {
    forall i, j | 0 <= i < j < |r| && r[i].count == r[j].count
      ensures IndexOf(words, r[i].word) < IndexOf(words, r[j].word)
    {
      assert CountsNoLess(r[j], r[i]);
      assert rank(r[i]) < rank(r[j]);
    }
  }

  lemma RankingEntries(words: seq<string>, tally: seq<WordCount>, r: seq<WordCount>)
    requires tally == Tally(words)
    requires multiset(r) == multiset(tally)
    ensures ExactCounts(words, r)
    ensures forall w | w in words :: w in WordsOf(r)
  {
    forall i | 0 <= i < |r| ensures r[i].word in words && r[i].count == multiset(words)[r[i].word] {
      assert r[i] in multiset(tally);
      var k :| 0 <= k < |tally| && tally[k] == r[i];
      assert WordsOf(tally)[k] == r[i].word;
    }
    forall w | w in words ensures w in WordsOf(r) {
      assert w in WordsOf(tally);
      var k :| 0 <= k < |tally| && tally[k].word == w;
      assert tally[k] in multiset(r);
      var m :| 0 <= m < |r| && r[m] == tally[k];
      assert WordsOf(r)[m] == w;
    }
  }

  /** `Counter(words).most_common(n)`: the first `n` entries of the ranking.
      Counts are exact, words distinct, counts never increase, ties are in
      first-seen order, and every word left out is outranked by every word
      listed (so fewer than `n` entries means no word was left out). */
  function MostCommon(words: seq<string>, n: nat): (r: seq<WordCount>)
    ensures |r| <= n
    ensures ExactCounts(words, r)
    ensures forall i, j | 0 <= i < j < |r| :: r[i].word != r[j].word
    ensures RankedByCount(words, r)
    ensures forall w | w in words && w !in WordsOf(r) ::
      |r| == n && forall i | 0 <= i < |r| :: Outranks(words, r[i].word, w)
  {
    var ranked := Ranking(words);
    var r := ranked[..if n < |ranked| then n else |ranked|];
    PrefixOfRanking(words, ranked, r, n);
    r
  }

  lemma PrefixOfRanking(words: seq<string>, ranked: seq<WordCount>, r: seq<WordCount>, n: nat)
    requires ExactCounts(words, ranked)
    requires forall w | w in words :: w in WordsOf(ranked)
    requires RankedByCount(words, ranked)
    requires r == ranked[..if n < |ranked| then n else |ranked|]
    ensures ExactCounts(words, r)
    ensures forall i, j | 0 <= i < j < |r| :: r[i].word != r[j].word
    ensures RankedByCount(words, r)
    ensures forall w | w in words && w !in WordsOf(r) ::
      |r| == n && forall i | 0 <= i < |r| :: Outranks(words, r[i].word, w)
  {
    assert forall i | 0 <= i < |r| :: r[i] == ranked[i];
    assert forall k | 0 <= k < |r| :: WordsOf(ranked)[k] == WordsOf(r)[k];
    forall w | w in words && w !in WordsOf(r)
      ensures |r| == n && forall i | 0 <= i < |r| :: Outranks(words, r[i].word, w)
    {
      var k :| 0 <= k < |ranked| && WordsOf(ranked)[k] == w;
    }
  }

  /** When two words tie for the highest count and every other word occurs
      less often, `most_common(2)` lists exactly those two, the one seen
      first leading: e.g. revenue and growth seen five times each, revenue
      first, ahead of margin seen three times. */
  lemma TopTwoOfTie(words: seq<string>, a: string, b: string)
    requires a in words && b in words && a != b
    requires multiset(words)[a] == multiset(words)[b]
    requires IndexOf(words, a) < IndexOf(words, b)
    requires forall w | w in words && w != a && w != b :: multiset(words)[w] < multiset(words)[a]
    ensures MostCommon(words, 2) == [WordCount(a, multiset(words)[a]), WordCount(b, multiset(words)[b])]
  {
    TopTwoOfRanked(words, a, b, MostCommon(words, 2));
  }

  /** `TopTwoOfTie` for any list with the properties `MostCommon` promises. */
  lemma TopTwoOfRanked(words: seq<string>, a: string, b: string, r: seq<WordCount>)
    requires a in words && b in words && a != b
    requires multiset(words)[a] == multiset(words)[b]
    requires IndexOf(words, a) < IndexOf(words, b)
    requires forall w | w in words && w != a && w != b :: multiset(words)[w] < multiset(words)[a]
    requires |r| <= 2
    requires ExactCounts(words, r)
    requires RankedByCount(words, r)
    requires forall w | w in words && w !in WordsOf(r) ::
      |r| == 2 && forall i | 0 <= i < |r| :: Outranks(words, r[i].word, w)
    ensures r == [WordCount(a, multiset(words)[a]), WordCount(b, multiset(words)[b])]
  {
    var m := multiset(words);
    // nothing outranks a, and only a outranks b
    forall w | w in words ensures !Outranks(words, w, a) && (Outranks(words, w, b) ==> w == a) {
      if w != a && w != b {
        assert m[w] < m[a];
      }
    }
    assert r[0].word in words;
    assert |r| == 2;
    assert r[1].word in words;
  }

  /** The chart produced: its file name and its bars. */
  datatype Chart = Chart(fileName: string, bars: seq<WordCount>)

  /** The chart file name: the upper-cased ticker followed by "_word_freq.png". */
  function ChartFileName(ticker: string): (name: string)
    ensures |name| == |ticker| + |ChartSuffix|
    ensures name[..|ticker|] == Upper(ticker) && name[|ticker|..] == ChartSuffix
    ensures forall i | 0 <= i < |ticker| :: !IsLower(name[i])
  {
    Upper(ticker) + ChartSuffix
  }

  /** Two tickers share a chart file exactly when they agree up to case, so a
      new analysis overwrites the old chart of the same ticker. */
  lemma ChartFileNameByTicker(a: string, b: string)
    ensures ChartFileName(a) == ChartFileName(b) <==> Upper(a) == Upper(b)
  {
    if ChartFileName(a) == ChartFileName(b) {
      assert Upper(a) == ChartFileName(a)[..|Upper(a)|];
      assert Upper(b) == ChartFileName(b)[..|Upper(b)|];
    }
  }

  /** `build_word_frequency_chart` without the PDF reader and the plotting:
      no chart when no word is retained, otherwise the top twelve words. */
  function BuildWordFrequencyChart(pages: seq<Option<string>>, ticker: string): (r: Option<Chart>)
    ensures r.None? <==> Words(pages) == []
    ensures r.Some? ==> r.value.fileName == ChartFileName(ticker)
    ensures r.Some? ==> 0 < |r.value.bars| <= TopCount
  {
    var words := Words(pages);
    if words == [] then None
    else
      var bars := MostCommon(words, TopCount);
      assert words[0] in words;
      Some(Chart(ChartFileName(ticker), bars))
  }

  /** The bars of a chart: countable words with their exact counts, most
      common first, ties in first-seen order, and no omitted word occurring
      more often than a listed one. */
  lemma ChartBarsRanked(pages: seq<Option<string>>, ticker: string)
    ensures var words := Words(pages);
      var chart := BuildWordFrequencyChart(pages, ticker);
      var bars := if chart.Some? then chart.value.bars else [];
      && (forall i | 0 <= i < |bars| :: CountableWord(bars[i].word) && bars[i].count == multiset(words)[bars[i].word])
      && RankedByCount(words, bars)
      && forall w | w in words && w !in WordsOf(bars) ::
           |bars| == TopCount && forall i | 0 <= i < |bars| :: Outranks(words, bars[i].word, w)
  {
  }
}

=== FILE: data_provider.dfy ===
/** `EarningsDataProvider.fetch_earnings_info` (app/services/data_provider.py):
    turns what the market-data source knows about a ticker into
    (ticker, company name, earnings date, session). The source's answers are
    inputs; parsing a date text and converting an epoch timestamp to a local
    date are function parameters, returning None where the library raises. */
module DataProvider {
  import opened PyValues
  import opened Text

  /** The date reported when no source gives one. */
  const NotAvailable: string := "N/A"

  /** When the results are released relative to the trading day. */
  datatype Session = PreMarket | PostMarket | Unknown {
    /** The label stored in a watch item. */
    function Label(): string {
      match this
      case PreMarket => "pre-market"
      case PostMarket => "post-market"
      case Unknown => "unknown"
    }
  }

  /** The fields of `stock.info` the provider reads; a missing key and a None
      value are both None. */
  datatype Info = Info(
    shortName: Option<string>,
    longName: Option<string>,
    earningsTimestamp: Option<int>,
    earningsTimestampStart: Option<int>)

  /** The first value of a calendar row: None, or the text `str()` gives for it. */
  datatype Cell = NullCell | TextCell(text: string)

  /** `stock.calendar` as the provider inspects it: its `empty` attribute
      (None when the object has none), and the first value of the
      "Earnings Date" and "Earnings Call Time" rows (None when the row is absent). */
  datatype Calendar = Calendar(
    emptyAttr: Option<bool>,
    earningsDate: Option<Cell>,
    callTime: Option<Cell>)

  /** Everything the source returns for one ticker. */
  datatype Quote = Quote(info: Info, calendar: Option<Calendar>)

  /** Why a resolution failed; the caller sees any of them as one exception. */
  datatype ProviderError =
    | LookupFailed          // the source could not be queried
    | DateTextRejected      // the date parser raised on the calendar's date text
    | TimestampRejected     // the epoch timestamp could not be converted

  /** The tuple `fetch_earnings_info` returns. */
  datatype EarningsInfo = EarningsInfo(
    ticker: string,
    companyName: string,
    earningsDate: string,
    session: Session)

  /** `str(value)` for a calendar cell. */
  function CellText(c: Cell): string {
    match c
    case NullCell => "None"
    case TextCell(t) => t
  }

  /** The company name: the short name when it is non-empty, else the long
      name when it is non-empty, else the upper-cased ticker. */
  function CompanyName(info: Info, ticker: string): (name: string)
    ensures ticker != [] ==> name != []
    ensures Truthy(info.shortName) ==> name == info.shortName.value
    ensures !Truthy(info.shortName) && Truthy(info.longName) ==> name == info.longName.value
    ensures !Truthy(info.shortName) && !Truthy(info.longName) ==> name == Upper(ticker)
  {
    if Truthy(info.shortName) then info.shortName.value
    else if Truthy(info.longName) then info.longName.value
    else Upper(ticker)
  }

  /** The calendar is looked at only when it is not None and its `empty`
      attribute exists and is false; a missing attribute counts as empty. */
  predicate Usable(calendar: Option<Calendar>): (b: bool)
    ensures calendar.None? ==> !b
    ensures calendar.Some? && calendar.value.emptyAttr.None? ==> !b
    ensures b <==> calendar.Some? && calendar.value.emptyAttr.Some? && !calendar.value.emptyAttr.value
  {
    calendar.Some? && calendar.value.emptyAttr == Some(false)
  }

  /** Classifies lower-cased call-time text: "am" or "before" means before the
      open, else "pm" or "after" means after the close, else unknown. */
  function ClassifyCallTime(text: string): (s: Session)
    ensures s == PreMarket <==> Contains(text, "am") || Contains(text, "before")
    ensures s == PostMarket <==>
      !Contains(text, "am") && !Contains(text, "before") && (Contains(text, "pm") || Contains(text, "after"))
  {
    if Contains(text, "am") || Contains(text, "before") then PreMarket
    else if Contains(text, "pm") || Contains(text, "after") then PostMarket
    else Unknown
  }

  /** The session the calendar gives, "unknown" without a usable calendar
      or without an "Earnings Call Time" row. */
  function CalendarSession(calendar: Option<Calendar>): (s: Session)
    ensures !Usable(calendar) ==> s == Unknown
    ensures Usable(calendar) && calendar.value.callTime.None? ==> s == Unknown
    ensures Usable(calendar) && calendar.value.callTime.Some? ==>
      s == ClassifyCallTime(Lower(CellText(calendar.value.callTime.value)))
  {
    if Usable(calendar) && calendar.value.callTime.Some? then
      ClassifyCallTime(Lower(CellText(calendar.value.callTime.value)))
    else Unknown
  }

  /** The date the calendar gives: None without a usable calendar, without an
      "Earnings Date" row or when its value is None; otherwise the parsed and
      formatted date, or a failure when the parser raises. */
  function CalendarDate(calendar: Option<Calendar>, parseDate: string -> Option<string>)
    : (r: Result<Option<string>, ProviderError>)
    ensures r.Failure? ==> r.error == DateTextRejected
    ensures !Usable(calendar) || calendar.value.earningsDate.None? || calendar.value.earningsDate == Some(NullCell)
      ==> r == Success(None)
    ensures Usable(calendar) && calendar.value.earningsDate.Some? && calendar.value.earningsDate.value.TextCell? ==>
      var parsed := parseDate(calendar.value.earningsDate.value.text);
      r == if parsed.Some? then Success(parsed) else Failure(DateTextRejected)
  {
    if Usable(calendar) && calendar.value.earningsDate.Some? then
      match calendar.value.earningsDate.value
      case NullCell => Success(None)
      case TextCell(raw) =>
        match parseDate(raw)
        case None => Failure(DateTextRejected)
        case Some(d) => Success(Some(d))
    else Success(None)
  }

  /** A timestamp is truthy when present and not zero. */
  predicate TruthyTimestamp(ts: Option<int>) {
    ts.Some? && ts.value != 0
  }

  /** The metadata timestamp: `earningsTimestamp` when it is truthy, else
      `earningsTimestampStart`. */
  function NextEarningsTimestamp(info: Info): (ts: Option<int>)
    ensures TruthyTimestamp(ts) <==>
      TruthyTimestamp(info.earningsTimestamp) || TruthyTimestamp(info.earningsTimestampStart)
    ensures TruthyTimestamp(info.earningsTimestamp) ==> ts == info.earningsTimestamp
    ensures TruthyTimestamp(ts) && !TruthyTimestamp(info.earningsTimestamp) ==> ts == info.earningsTimestampStart
  {
    if TruthyTimestamp(info.earningsTimestamp) then info.earningsTimestamp
    else info.earningsTimestampStart
  }

  /** The date the issuer metadata gives: None when neither timestamp is
      truthy, else the local date of the first truthy one. */
  function TimestampDate(info: Info, formatTimestamp: int -> Option<string>)
    : (r: Result<Option<string>, ProviderError>)
    ensures r.Failure? ==> r.error == TimestampRejected
    ensures !TruthyTimestamp(info.earningsTimestamp) && !TruthyTimestamp(info.earningsTimestampStart)
      ==> r == Success(None)
    ensures TruthyTimestamp(info.earningsTimestamp) ==>
      var d := formatTimestamp(info.earningsTimestamp.value);
      r == if d.Some? then Success(d) else Failure(TimestampRejected)
    ensures !TruthyTimestamp(info.earningsTimestamp) && TruthyTimestamp(info.earningsTimestampStart) ==>
      var d := formatTimestamp(info.earningsTimestampStart.value);
      r == if d.Some? then Success(d) else Failure(TimestampRejected)
  {
    var ts := NextEarningsTimestamp(info);
    if TruthyTimestamp(ts) then
      match formatTimestamp(ts.value)
      case None => Failure(TimestampRejected)
      case Some(d) => Success(Some(d))
    else Success(None)
  }

  /** `fetch_earnings_info(ticker)` given the source's answer `quote` (None
      when the lookup itself fails). */
  function FetchEarningsInfo(
    ticker: string,
    quote: Option<Quote>,
    parseDate: string -> Option<string>,
    formatTimestamp: int -> Option<string>)
    : (r: Result<EarningsInfo, ProviderError>)
    ensures quote.None? ==> r == Failure(LookupFailed)
    ensures r.Success? ==> r.value.ticker == Upper(ticker)
    ensures r.Success? ==> r.value.earningsDate != []
    ensures r.Success? && ticker != [] ==> r.value.companyName != []
    ensures r.Success? ==> r.value.companyName == CompanyName(quote.value.info, ticker)
    ensures r.Success? ==> r.value.session == CalendarSession(quote.value.calendar)
  {
    match quote
    case None => Failure(LookupFailed)
    case Some(q) =>
      var name := CompanyName(q.info, ticker);
      var session := CalendarSession(q.calendar);
      match CalendarDate(q.calendar, parseDate)
      case Failure(e) => Failure(e)
      case Success(fromCalendar) =>
        if Truthy(fromCalendar) then
          Success(EarningsInfo(Upper(ticker), name, fromCalendar.value, session))
        else
          match TimestampDate(q.info, formatTimestamp)
          case Failure(e) => Failure(e)
          case Success(fromTimestamp) =>
            var date := if Truthy(fromTimestamp) then fromTimestamp.value else NotAvailable;
            Success(EarningsInfo(Upper(ticker), name, date, session))
  }

  /** One strategy of the date fallback chain: it resolves the date, passes
      to the next strategy, or raises. */
  datatype Step = Resolved(date: string) | TryNext | Raised(error: ProviderError)

  /** A strategy's outcome from a source that gives a date, no date, or a failure;
      an empty date counts as no date. */
  function AsStep(r: Result<Option<string>, ProviderError>): Step {
    match r
    case Failure(e) => Raised(e)
    case Success(d) => if Truthy(d) then Resolved(d.value) else TryNext
  }

  /** Runs the strategies in order: the first one that resolves or raises decides;
      when all pass, the fallback is the date. */
  function RunChain(steps: seq<Step>, fallback: string): (r: Result<string, ProviderError>)
    ensures r.Success? ==> r.value == fallback || exists i | 0 <= i < |steps| :: steps[i] == Resolved(r.value)
    ensures (forall i | 0 <= i < |steps| :: steps[i] == TryNext) ==> r == Success(fallback)
    ensures steps != [] && steps[0].Resolved? ==> r == Success(steps[0].date)
    ensures steps != [] && steps[0].Raised? ==> r == Failure(steps[0].error)
    decreases |steps|
  {
    if steps == [] then Success(fallback)
    else
      match steps[0]
      case Resolved(d) => Success(d)
      case Raised(e) => Failure(e)
      case TryNext =>
        var r := RunChain(steps[1..], fallback);
        assert forall i | 0 <= i < |steps[1..]| :: steps[1..][i] == steps[i + 1];
        r
  }

  /** A strategy that passes hands the decision to the rest of the chain. */
  lemma RunChainSkips(steps: seq<Step>, fallback: string)
    ensures steps != [] && steps[0] == TryNext ==> RunChain(steps, fallback) == RunChain(steps[1..], fallback)
  {
  }

  /** The date is the first of: the calendar's date, the metadata timestamp's
      date, "N/A" -- an ordered chain of independent strategies. */
  lemma DateFollowsChain(
    ticker: string,
    q: Quote,
    parseDate: string -> Option<string>,
    formatTimestamp: int -> Option<string>)
    ensures var r := FetchEarningsInfo(ticker, Some(q), parseDate, formatTimestamp);
      var chain := RunChain([AsStep(CalendarDate(q.calendar, parseDate)),
                             AsStep(TimestampDate(q.info, formatTimestamp))], NotAvailable);
      && (r.Success? <==> chain.Success?)
      && (r.Success? ==> r.value.earningsDate == chain.value)
      && (r.Failure? ==> r.error == chain.error)
  {
  }

  /** A date from the calendar wins over the metadata timestamps. */
  lemma CalendarDateWins(
    ticker: string,
    q: Quote,
    parseDate: string -> Option<string>,
    formatTimestamp: int -> Option<string>,
    d: string)
    requires CalendarDate(q.calendar, parseDate) == Success(Some(d)) && d != []
    ensures FetchEarningsInfo(ticker, Some(q), parseDate, formatTimestamp).Success?
    ensures FetchEarningsInfo(ticker, Some(q), parseDate, formatTimestamp).value.earningsDate == d
  {
  }

  /** Without a calendar date, a truthy `earningsTimestamp` is used and
      `earningsTimestampStart` is ignored. */
  lemma PrimaryTimestampWins(
    ticker: string,
    q: Quote,
    parseDate: string -> Option<string>,
    formatTimestamp: int -> Option<string>,
    d: string)
    requires CalendarDate(q.calendar, parseDate) == Success(None)
    requires TruthyTimestamp(q.info.earningsTimestamp)
    requires formatTimestamp(q.info.earningsTimestamp.value) == Some(d) && d != []
    ensures FetchEarningsInfo(ticker, Some(q), parseDate, formatTimestamp).Success?
    ensures FetchEarningsInfo(ticker, Some(q), parseDate, formatTimestamp).value.earningsDate == d
  {
  }

  /** Without a calendar date and with a falsy `earningsTimestamp`, a truthy
      `earningsTimestampStart` gives the date. */
  lemma StartTimestampUsed(
    ticker: string,
    q: Quote,
    parseDate: string -> Option<string>,
    formatTimestamp: int -> Option<string>,
    d: string)
    requires CalendarDate(q.calendar, parseDate).Success? && !Truthy(CalendarDate(q.calendar, parseDate).value)
    requires !TruthyTimestamp(q.info.earningsTimestamp) && TruthyTimestamp(q.info.earningsTimestampStart)
    requires formatTimestamp(q.info.earningsTimestampStart.value) == Some(d) && d != []
    ensures FetchEarningsInfo(ticker, Some(q), parseDate, formatTimestamp).Success?
    ensures FetchEarningsInfo(ticker, Some(q), parseDate, formatTimestamp).value.earningsDate == d
  {
  }

  /** The session never depends on the issuer metadata, so the timestamp
      fallback cannot change it. */
  lemma SessionIgnoresMetadata(
    ticker: string,
    q1: Quote,
    q2: Quote,
    parseDate: string -> Option<string>,
    format1: int -> Option<string>,
    format2: int -> Option<string>)
    requires q1.calendar == q2.calendar
    requires FetchEarningsInfo(ticker, Some(q1), parseDate, format1).Success?
    requires FetchEarningsInfo(ticker, Some(q2), parseDate, format2).Success?
    ensures FetchEarningsInfo(ticker, Some(q1), parseDate, format1).value.session
         == FetchEarningsInfo(ticker, Some(q2), parseDate, format2).value.session
  {
  }

  /** A pre-market marker cannot be outvoted: adding any text around call-time
      text classified pre-market keeps it pre-market. */
  lemma PreMarketDominates(text: string, before: string, after: string)
    requires ClassifyCallTime(text) == PreMarket
    ensures ClassifyCallTime(before + text + after) == PreMarket
  {
    if Contains(text, "am") {
      ContainsExtend(text, "am", before, after);
    } else {
      ContainsExtend(text, "before", before, after);
    }
  }

  /** "Before market open" is pre-market. */
  lemma BeforeOpenIsPreMarket()
    ensures ClassifyCallTime("before market open") == PreMarket
  {
    assert "before market open" == "" + "before" + " market open";
    ContainsExtend("before", "before", "", " market open");
  }

  /** "am" does not occur in "after market close": cut the text where an
      "a" meets the rest, each piece lacks "a" or "m", and no seam joins them. */
  lemma NoAmInAfterMarketClose(t: string)
    requires t == "after market close"
    ensures !Contains(t, "am")
  {
    var p1, p2, p3, p4 := "a", "fter m", "a", "rket close";
    AfterMarketClosePieces(t);
    MissingCharNotContained(p1, "am", 1);
    MissingCharNotContained(p2, "am", 0);
    MissingCharNotContained(p3, "am", 1);
    MissingCharNotContained(p4, "am", 0);
    NoPairAcross(p1, p2, "am");
    NoPairAcross(p1 + p2, p3, "am");
    NoPairAcross((p1 + p2) + p3, p4, "am");
  }

  lemma AfterMarketClosePieces(t: string)
    requires t == "after market close"
    ensures t == (("a" + "fter m") + "a") + "rket close"
  {
  }

  lemma NoBeforeInAfterMarketClose(t: string)
    requires t == "after market close"
    ensures !Contains(t, "before")
  {
    MissingCharNotContained(t, "before", 0);
  }

  lemma AfterInAfterMarketClose(t: string)
    requires t == "after market close"
    ensures Contains(t, "after")
  {
    assert t == "" + "after" + " market close";
    ContainsExtend("after", "after", "", " market close");
  }

  /** "After market close" is post-market. */
  lemma AfterCloseIsPostMarket()
    ensures ClassifyCallTime("after market close") == PostMarket
  {
    NoAmInAfterMarketClose("after market close");
    NoBeforeInAfterMarketClose("after market close");
    AfterInAfterMarketClose("after market close");
  }

  /** A call time of "tbd" names no session. */
  lemma UndecidedIsUnknown()
    ensures ClassifyCallTime("tbd") == Unknown
  {
    var t := "tbd";
    MissingCharNotContained(t, "am", 0);
    MissingCharNotContained(t, "before", 1);
    MissingCharNotContained(t, "pm", 0);
    MissingCharNotContained(t, "after", 0);
  }

  /** Call-time text is compared case-insensitively. */
  lemma SessionIgnoresCase(a: string, b: string, emptyAttr: Option<bool>, date: Option<Cell>)
    requires Lower(a) == Lower(b)
    ensures CalendarSession(Some(Calendar(emptyAttr, date, Some(TextCell(a)))))
         == CalendarSession(Some(Calendar(emptyAttr, date, Some(TextCell(b)))))
  {
  }
}

=== FILE: models.dfy ===
/** The `WatchItem` record (app/models.py) and its dictionary form, the shape
    in which the watch list is saved as JSON and read back. */
module Models {
  import opened PyValues

  /** One watched company. The session is the label the provider returns;
      the last three fields are optional and start out as None. */
  datatype WatchItem = WatchItem(
    ticker: string,
    companyName: string,
    earningsDate: Option<string>,
    marketSession: string,
    irUrl: Option<string>,
    lastPdfPath: Option<string>,
    updatedAt: Option<string>)

  /** `WatchItem(ticker, company_name, earnings_date, market_session)`:
      the optional fields take their defaults. */
  function NewWatchItem(ticker: string, companyName: string, earningsDate: Option<string>, marketSession: string)
    : (w: WatchItem)
    ensures w.irUrl == None && w.lastPdfPath == None && w.updatedAt == None
    ensures w.ticker == ticker && w.companyName == companyName
    ensures w.earningsDate == earningsDate && w.marketSession == marketSession
  {
    WatchItem(ticker, companyName, earningsDate, marketSession, None, None, None)
  }

  /** The dictionary keys, in declaration order. */
  const FieldNames: seq<string> :=
    ["ticker", "company_name", "earnings_date", "market_session", "ir_url", "last_pdf_path", "updated_at"]

  /** The fields without a default, which a dictionary must supply. */
  const RequiredFields: seq<string> := ["ticker", "company_name", "earnings_date", "market_session"]

  /** The fields whose value may be None. */
  const OptionalFields: seq<string> := ["earnings_date", "ir_url", "last_pdf_path", "updated_at"]

  /** A JSON value as stored for a field: null or a string. */
  datatype Value = Null | Str(text: string)

  type Dict = map<string, Value>

  function FromOption(o: Option<string>): Value {
    match o
    case None => Null
    case Some(s) => Str(s)
  }

  function ToOption(v: Value): Option<string> {
    match v
    case Null => None
    case Str(s) => Some(s)
  }

  /** `to_dict()`: one entry per field, None as null. */
  function ToDict(w: WatchItem): (d: Dict)
    ensures forall k :: k in d <==> k in FieldNames
    ensures forall k | k in d && k !in OptionalFields :: d[k].Str?
  {
    map[
      "ticker" := Str(w.ticker),
      "company_name" := Str(w.companyName),
      "earnings_date" := FromOption(w.earningsDate),
      "market_session" := Str(w.marketSession),
      "ir_url" := FromOption(w.irUrl),
      "last_pdf_path" := FromOption(w.lastPdfPath),
      "updated_at" := FromOption(w.updatedAt)]
  }

  /** The entry of each field. */
  lemma ToDictAt(w: WatchItem)
    ensures var d := ToDict(w);
      && d["ticker"] == Str(w.ticker)
      && d["company_name"] == Str(w.companyName)
      && d["earnings_date"] == FromOption(w.earningsDate)
      && d["market_session"] == Str(w.marketSession)
      && d["ir_url"] == FromOption(w.irUrl)
      && d["last_pdf_path"] == FromOption(w.lastPdfPath)
      && d["updated_at"] == FromOption(w.updatedAt)
  {
  }

  /** Why `from_dict` raised (a TypeError in every case). */
  datatype DictError =
    | UnexpectedField                 // some key is not a field
    | MissingField(name: string)      // a field without a default is absent
    | NullField(name: string)         // null where the record holds a plain string

  /** The value a dictionary gives an optional field, None when absent. */
  function OptionalEntry(d: Dict, k: string): Option<string> {
    if k in d then ToOption(d[k]) else None
  }

  /** The first field name of `names` that `d` lacks. */
  function FirstMissing(d: Dict, names: seq<string>): (r: Option<string>)
    ensures r.None? <==> forall i | 0 <= i < |names| :: names[i] in d
    ensures r.Some? ==> r.value in names && r.value !in d
  {
    if names == [] then None
    else if names[0] !in d then Some(names[0])
    else FirstMissing(d, names[1..])
  }

  /** Every field without a default has an entry. */
  predicate HasRequired(d: Dict) {
    "ticker" in d && "company_name" in d && "earnings_date" in d && "market_session" in d
  }

  lemma HasRequiredFields(d: Dict)
    ensures HasRequired(d) <==> forall i | 0 <= i < |RequiredFields| :: RequiredFields[i] in d
  {
    if forall i | 0 <= i < |RequiredFields| :: RequiredFields[i] in d {
      assert RequiredFields[0] in d && RequiredFields[1] in d;
      assert RequiredFields[2] in d && RequiredFields[3] in d;
    }
  }

  /** The first of the plain-string fields that `d` holds as null. */
  function FirstNull(d: Dict): (r: Option<string>)
    requires HasRequired(d)
    ensures r.None? <==> d["ticker"].Str? && d["company_name"].Str? && d["market_session"].Str?
  {
    if d["ticker"].Null? then Some("ticker")
    else if d["company_name"].Null? then Some("company_name")
    else if d["market_session"].Null? then Some("market_session")
    else None
  }

  /** `from_dict(value)`, i.e. `WatchItem(**value)`: an unknown key is
      rejected first, then a missing required field. */
  function FromDict(d: Dict): (r: Result<WatchItem, DictError>)
    ensures r.Success? <==>
      && (forall k | k in d :: k in FieldNames)
      && HasRequired(d)
      && d["ticker"].Str? && d["company_name"].Str? && d["market_session"].Str?
    ensures r == Failure(UnexpectedField) <==> exists k | k in d :: k !in FieldNames
    ensures r.Failure? && r.error.MissingField? ==>
      (forall k | k in d :: k in FieldNames) && r.error.name in RequiredFields && r.error.name !in d
  {
    if exists k | k in d :: k !in FieldNames then Failure(UnexpectedField)
    else
      HasRequiredFields(d);
      match FirstMissing(d, RequiredFields)
      case Some(k) => Failure(MissingField(k))
      case None =>
        match FirstNull(d)
        case Some(k) => Failure(NullField(k))
        case None =>
          Success(WatchItem(
            d["ticker"].text,
            d["company_name"].text,
            ToOption(d["earnings_date"]),
            d["market_session"].text,
            OptionalEntry(d, "ir_url"),
            OptionalEntry(d, "last_pdf_path"),
            OptionalEntry(d, "updated_at")))
  }

  /** A loaded record saves back to the dictionary it came from, with null for
      every optional field the dictionary left out. */
  lemma ToFromDict(d: Dict)
    requires FromDict(d).Success?
    ensures forall k | k in d :: ToDict(FromDict(d).value)[k] == d[k]
    ensures forall k | k in FieldNames && k !in d :: ToDict(FromDict(d).value)[k] == Null
  {
    forall k | k in d ensures ToDict(FromDict(d).value)[k] == d[k] {
      SavedEntry(d, k);
    }
  }

  /** One entry of a loaded record's dictionary. */
  lemma SavedEntry(d: Dict, k: string)
    requires FromDict(d).Success? && k in d
    ensures ToDict(FromDict(d).value)[k] == d[k]
  {
    assert k in FieldNames;
    if k in OptionalFields {
      SavedOptional(d, k);
    } else {
      SavedPlain(d, k);
    }
  }

  lemma SavedPlain(d: Dict, k: string)
    requires FromDict(d).Success? && k in d
    requires k == "ticker" || k == "company_name" || k == "market_session"
    ensures ToDict(FromDict(d).value)[k] == d[k]
  {
    ToDictAt(FromDict(d).value);
    LoadedFields(d);
  }

  lemma SavedOptional(d: Dict, k: string)
    requires FromDict(d).Success? && k in d && k in OptionalFields
    ensures ToDict(FromDict(d).value)[k] == d[k]
  {
    ToDictAt(FromDict(d).value);
    LoadedFields(d);
    assert OptionalEntry(d, k) == ToOption(d[k]);
    ValueRoundTrip(d[k]);
  }

  lemma ValueRoundTrip(v: Value)
    ensures FromOption(ToOption(v)) == v
  {
  }

  /** The fields of a loaded record, one by one. */
  lemma LoadedFields(d: Dict)
    requires FromDict(d).Success?
    ensures var w := FromDict(d).value;
      && Str(w.ticker) == d["ticker"]
      && Str(w.companyName) == d["company_name"]
      && Str(w.marketSession) == d["market_session"]
      && w.earningsDate == ToOption(d["earnings_date"])
      && w.irUrl == OptionalEntry(d, "ir_url")
      && w.lastPdfPath == OptionalEntry(d, "last_pdf_path")
      && w.updatedAt == OptionalEntry(d, "updated_at")
  {
  }

  /** Saving and loading a record gives it back, None fields included. */
  lemma FromToDict(w: WatchItem)
    ensures FromDict(ToDict(w)) == Success(w)
  {
    var d := ToDict(w);
    ToDictAt(w);
    assert HasRequired(d);
    assert FromDict(d).Success?;
    LoadedFields(d);
    OptionRoundTrip(w.earningsDate);
    OptionRoundTrip(w.irUrl);
    OptionRoundTrip(w.lastPdfPath);
    OptionRoundTrip(w.updatedAt);
  }

  lemma OptionRoundTrip(o: Option<string>)
    ensures ToOption(FromOption(o)) == o
  {
  }

  /** Two records with the same dictionary are the same record. */
  lemma ToDictInjective(a: WatchItem, b: WatchItem)
    requires ToDict(a) == ToDict(b)
    ensures a == b
  {
    FromToDict(a);
    FromToDict(b);
  }

  /** `set_updated_now()` with the formatted current time `now`: only the
      update time changes. */
  function SetUpdatedNow(w: WatchItem, now: string): (r: WatchItem)
    ensures r.updatedAt == Some(now)
    ensures ToDict(r) == ToDict(w)["updated_at" := Str(now)]
  {
    w.(updatedAt := Some(now))
  }
}

=== FILE: pdf_service.dfy ===
/** `InvestorPdfService.download_latest_pdf` (app/services/pdf_service.py):
    choosing the earnings PDF among the links of an investor-relations page
    and naming the file it is saved under. Fetching the page, parsing its
    HTML, resolving the link against the page URL and fetching the PDF are
    function parameters; None stands for a request that raised. */
module PdfService {
  import opened PyValues
  import opened Text

  /** The words of which one must occur in a link's text or address. */
  const Keywords: seq<string> := ["earnings", "quarter", "results", "presentation"]

  /** What a link's lower-cased address must contain to be a PDF link. */
  const PdfMarker: string := ".pdf"

  /** Appended to the sanitised ticker to name the saved file. */
  const FileSuffix: string := "_latest_earnings.pdf"

  /** One `<a href=...>` of the page: its address as written and its text. */
  datatype Anchor = Anchor(href: string, text: string)

  /** The text the keyword test searches: the stripped, lower-cased link text
      immediately followed by the lower-cased address, with no separator. */
  function SearchText(a: Anchor): (s: string)
    ensures |s| == |Strip(a.text)| + |a.href|
    ensures forall i | 0 <= i < |s| :: !IsUpper(s[i])
    ensures s[|Strip(a.text)|..] == Lower(a.href)
  {
    LowerPair(Strip(a.text), a.href);
    Lower(Strip(a.text)) + Lower(a.href)
  }

  predicate HasKeyword(s: string) {
    exists k | 0 <= k < |Keywords| :: Contains(s, Keywords[k])
  }

  /** Every keyword is at least seven characters long, so a text holding one
      is too. */
  lemma KeywordNeedsRoom(s: string)
    ensures HasKeyword(s) ==> |s| >= 7
  {
    if HasKeyword(s) {
      var k :| 0 <= k < |Keywords| && Contains(s, Keywords[k]);
      ContainsLength(s, Keywords[k]);
    }
  }

  /** An anchor is a candidate when its address names a PDF and a keyword
      occurs in its search text. */
  predicate Qualifies(a: Anchor): (b: bool)
    ensures b ==> |a.href| >= |PdfMarker|
    ensures b ==> |Strip(a.text)| + |a.href| >= 7
  {
    ContainsLength(Lower(a.href), PdfMarker);
    KeywordNeedsRoom(SearchText(a));
    Contains(Lower(a.href), PdfMarker) && HasKeyword(SearchText(a))
  }

  /** The link test ignores the case of the address: lower-casing it first
      changes nothing. */
  lemma QualifiesIgnoresHrefCase(a: Anchor)
    ensures Qualifies(a) <==> Qualifies(a.(href := Lower(a.href)))
  {
    LowerKeeps(Lower(a.href));
  }

  /** The addresses, as written, of the anchors satisfying `p`, in document order.
      Kept generic in `p` so that the proofs below never unfold the link test. */
  function HrefsWhere(anchors: seq<Anchor>, p: Anchor -> bool): (r: seq<string>)
    ensures |r| <= |anchors|
    ensures r == [] <==> forall i | 0 <= i < |anchors| :: !p(anchors[i])
    decreases |anchors|
  {
    if anchors == [] then []
    else (if p(anchors[0]) then [anchors[0].href] else []) + HrefsWhere(anchors[1..], p)
  }

  /** The candidate links: addresses of the qualifying anchors in document order. */
  function Candidates(anchors: seq<Anchor>): (r: seq<string>)
    ensures |r| <= |anchors|
    ensures r == [] <==> forall i | 0 <= i < |anchors| :: !Qualifies(anchors[i])
  {
    HrefsWhere(anchors, Qualifies)
  }

  lemma {:induction false} HrefsWhereAppend(a: seq<Anchor>, b: seq<Anchor>, p: Anchor -> bool)
    ensures HrefsWhere(a + b, p) == HrefsWhere(a, p) + HrefsWhere(b, p)
    decreases |a|
  {
    if a == [] {
      assert a + b == b;
    } else {
      HrefsWhereAppend(a[1..], b, p);
      SliceConcat(a, b, 1);
      var h := if p(a[0]) then [a[0].href] else [];
      assert HrefsWhere(a + b, p) == h + HrefsWhere(a[1..] + b, p);
      ConsAppend(HrefsWhere(a + b, p), HrefsWhere(a, p), HrefsWhere(b, p),
                 HrefsWhere(a[1..] + b, p), HrefsWhere(a[1..], p), h);
    }
  }

  /** Candidates of a page read in two parts are those of the first part, then
      those of the second: document order is kept. */
  lemma CandidatesAppend(a: seq<Anchor>, b: seq<Anchor>)
    ensures Candidates(a + b) == Candidates(a) + Candidates(b)
  {
    HrefsWhereAppend(a, b, Qualifies);
  }

  /** A single anchor contributes its address, as written, exactly when it qualifies. */
  lemma CandidatesOfOne(a: Anchor)
    ensures Candidates([a]) == if Qualifies(a) then [a.href] else []
  {
    assert [a][1..] == [];
  }

  lemma {:induction false} HrefsWhereMembership(anchors: seq<Anchor>, p: Anchor -> bool, h: string)
    ensures h in HrefsWhere(anchors, p) <==>
            exists i | 0 <= i < |anchors| :: p(anchors[i]) && anchors[i].href == h
    decreases |anchors|
  {
    if anchors != [] {
      HrefsWhereMembership(anchors[1..], p, h);
      if h in HrefsWhere(anchors[1..], p) {
        var i :| 0 <= i < |anchors[1..]| && p(anchors[1..][i]) && anchors[1..][i].href == h;
        assert anchors[i + 1] == anchors[1..][i];
      }
      if exists i | 0 <= i < |anchors| :: p(anchors[i]) && anchors[i].href == h {
        var i :| 0 <= i < |anchors| && p(anchors[i]) && anchors[i].href == h;
        if i > 0 {
          assert anchors[1..][i - 1] == anchors[i];
        }
      }
    }
  }

  /** A string is a candidate exactly when some qualifying anchor has it as its address. */
  lemma CandidateMembership(anchors: seq<Anchor>, h: string)
    ensures h in Candidates(anchors) <==>
            exists i | 0 <= i < |anchors| :: Qualifies(anchors[i]) && anchors[i].href == h
  {
    HrefsWhereMembership(anchors, Qualifies, h);
  }

  /** Position of the first anchor satisfying `p`, `|anchors|` when there is none. */
  function FirstWhere(anchors: seq<Anchor>, p: Anchor -> bool): (k: nat)
    ensures k <= |anchors|
    ensures forall j | 0 <= j < k :: !p(anchors[j])
    ensures k < |anchors| ==> p(anchors[k])
    decreases |anchors|
  {
    if anchors == [] || p(anchors[0]) then 0 else 1 + FirstWhere(anchors[1..], p)
  }

  /** The first address in `HrefsWhere` is that of the first anchor satisfying `p`. */
  lemma {:induction false} FirstHref(anchors: seq<Anchor>, p: Anchor -> bool)
    requires HrefsWhere(anchors, p) != []
    ensures FirstWhere(anchors, p) < |anchors|
    ensures HrefsWhere(anchors, p)[0] == anchors[FirstWhere(anchors, p)].href
    decreases |anchors|
  {
    if !p(anchors[0]) {
      FirstHref(anchors[1..], p);
    }
  }

  /** The link that is downloaded: the first candidate, None without candidates. */
  function SelectPdfLink(anchors: seq<Anchor>): (r: Option<string>)
    ensures r.None? <==> forall i | 0 <= i < |anchors| :: !Qualifies(anchors[i])
    ensures r.Some? ==> exists i | 0 <= i < |anchors| ::
      && Qualifies(anchors[i])
      && r.value == anchors[i].href
      && forall j | 0 <= j < i :: !Qualifies(anchors[j])
  {
    var candidates := Candidates(anchors);
    if candidates == [] then None
    else
      FirstHref(anchors, Qualifies);
      Some(candidates[0])
  }

  lemma LogoSearchText()
    ensures SearchText(Anchor("logo.pdf", "Company Logo")) == "company logologo.pdf"
  {
    StripKeeps("Company Logo");
    assert Lower("Company Logo") == "company logo";
    LowerKeeps("logo.pdf");
    assert "company logo" + "logo.pdf" == "company logologo.pdf";
  }

  lemma NoKeywordInLogo(t: string)
    requires t == "company logologo.pdf"
    ensures !HasKeyword(t)
  {
    assert 'e' !in t && 'q' !in t && 'r' !in t && 's' !in t;
    NoKeywordWithout(t);
  }

  /** Text without the letters e, q, r and s holds none of the keywords. */
  lemma NoKeywordWithout(t: string)
    requires 'e' !in t && 'q' !in t && 'r' !in t && 's' !in t
    ensures !HasKeyword(t)
  {
    forall k | 0 <= k < |Keywords| ensures !Contains(t, Keywords[k]) {
      if k == 3 {
        MissingCharNotContained(t, Keywords[k], 3);
      } else {
        MissingCharNotContained(t, Keywords[k], 0);
      }
    }
  }

  /** A logo is a PDF link, but no keyword occurs in its text or address. */
  lemma LogoRejected()
    ensures !Qualifies(Anchor("logo.pdf", "Company Logo"))
  {
    LogoSearchText();
    NoKeywordInLogo(SearchText(Anchor("logo.pdf", "Company Logo")));
  }

  lemma ReportText()
    ensures Lower("Q3 Results") == "q3 results"
  {
  }

  lemma ReportSearchText()
    ensures SearchText(Anchor("report.pdf", "Q3 Results")) == "q3 resultsreport.pdf"
  {
    StripKeeps("Q3 Results");
    ReportText();
    LowerKeeps("report.pdf");
    assert "q3 results" + "report.pdf" == "q3 resultsreport.pdf";
  }

  lemma PdfMarkerInReport(h: string)
    requires h == "report.pdf"
    ensures Contains(h, PdfMarker)
  {
    assert h == "report" + PdfMarker + "";
    ContainsExtend(PdfMarker, PdfMarker, "report", "");
  }

  lemma KeywordInReport(t: string)
    requires t == "q3 resultsreport.pdf"
    ensures HasKeyword(t)
  {
    assert t == "q3 " + Keywords[2] + "report.pdf";
    ContainsExtend(Keywords[2], Keywords[2], "q3 ", "report.pdf");
  }

  /** A report whose link text names results qualifies. */
  lemma ReportQualifies()
    ensures Qualifies(Anchor("report.pdf", "Q3 Results"))
  {
    LowerKeeps("report.pdf");
    PdfMarkerInReport(Lower("report.pdf"));
    ReportSearchText();
    KeywordInReport(SearchText(Anchor("report.pdf", "Q3 Results")));
  }

  /** Of two links, the first qualifying one is selected; none when neither qualifies. */
  lemma SelectOfTwo(x: Anchor, y: Anchor)
    ensures SelectPdfLink([x, y]) ==
      if Qualifies(x) then Some(x.href) else if Qualifies(y) then Some(y.href) else None
  {
    CandidatesOfOne(x);
    CandidatesOfOne(y);
    CandidatesAppend([x], [y]);
    assert [x] + [y] == [x, y];
  }

  /** On a page with a company logo link and a results report, in either
      order, the report is selected and the logo rejected. */
  lemma SelectsResultsReport()
    ensures SelectPdfLink([Anchor("logo.pdf", "Company Logo"), Anchor("report.pdf", "Q3 Results")])
         == Some("report.pdf")
    ensures SelectPdfLink([Anchor("report.pdf", "Q3 Results"), Anchor("logo.pdf", "Company Logo")])
         == Some("report.pdf")
  {
    LogoRejected();
    ReportQualifies();
    SelectOfTwo(Anchor("logo.pdf", "Company Logo"), Anchor("report.pdf", "Q3 Results"));
    SelectOfTwo(Anchor("report.pdf", "Q3 Results"), Anchor("logo.pdf", "Company Logo"));
  }

  /** The characters `[A-Za-z0-9_-]` a file name keeps. */
  predicate SafeChar(c: char) {
    IsAlpha(c) || IsDigit(c) || c == '_' || c == '-'
  }

  function SafeCharOf(c: char): char {
    if SafeChar(c) then c else '_'
  }

  /** The upper-cased ticker with every character outside `[A-Za-z0-9_-]` replaced by `_`. */
  function Sanitize(ticker: string): (r: string)
    ensures |r| == |ticker|
    ensures forall i | 0 <= i < |r| :: SafeChar(r[i]) && !IsLower(r[i])
    ensures forall i | 0 <= i < |r| :: SafeChar(Upper(ticker)[i]) ==> r[i] == Upper(ticker)[i]
    ensures forall i | 0 <= i < |r| :: !SafeChar(Upper(ticker)[i]) ==> r[i] == '_'
  {
    var u := Upper(ticker);
    seq(|u|, i requires 0 <= i < |u| => SafeCharOf(u[i]))
  }

  /** Sanitising a sanitised ticker changes nothing. */
  lemma SanitizeIdempotent(ticker: string)
    ensures Sanitize(Sanitize(ticker)) == Sanitize(ticker)
  {
    var s := Sanitize(ticker);
    assert Upper(s) == s;
  }

  /** A ticker that is already upper-case and safe is its own file stem. */
  lemma SanitizeKeepsSafe(ticker: string)
    requires forall i | 0 <= i < |ticker| :: SafeChar(ticker[i]) && !IsLower(ticker[i])
    ensures Sanitize(ticker) == ticker
  {
    assert Upper(ticker) == ticker;
  }

  /** The class-B share ticker loses its dot. */
  lemma SanitizeShareClass()
    ensures Sanitize("BRK.B") == "BRK_B"
  {
    var u := Upper("BRK.B");
    assert u == "BRK.B";
  }

  /** The name of the saved file. */
  function PdfFileName(ticker: string): (name: string)
    ensures |name| == |ticker| + |FileSuffix|
    ensures name[|ticker|..] == FileSuffix
    ensures name[..|ticker|] == Sanitize(ticker)
  {
    Sanitize(ticker) + FileSuffix
  }

  /** The class-B share ticker is saved as `BRK_B_latest_earnings.pdf`. */
  lemma ShareClassFileName()
    ensures PdfFileName("BRK.B") == "BRK_B_latest_earnings.pdf"
  {
    SanitizeShareClass();
  }

  /** Two tickers share a file -- the later download overwrites the earlier --
      exactly when they sanitise alike. */
  lemma SameFileName(a: string, b: string)
    ensures PdfFileName(a) == PdfFileName(b) <==> Sanitize(a) == Sanitize(b)
  {
    if PdfFileName(a) == PdfFileName(b) {
      assert Sanitize(a) == PdfFileName(a)[..|a|];
      assert Sanitize(b) == PdfFileName(b)[..|b|];
    }
  }

  /** Tickers that differ only in case, or in which unsafe character they use,
      are saved under the same name. */
  lemma DistinctTickersShareFile()
    ensures PdfFileName("BRK.B") == PdfFileName("brk/b")
  {
    SanitizeShareClass();
    var u := Upper("brk/b");
    assert u == "BRK/B";
  }

  /** Why a download ended in an exception. */
  datatype PdfError =
    | PageFetchFailed   // the investor-relations page could not be fetched
    | PdfFetchFailed    // the selected PDF could not be fetched

  /** A file written by the service: its name in the output directory, the
      address it was fetched from, and the bytes written. */
  datatype SavedPdf = SavedPdf(fileName: string, url: string, content: seq<bv8>)

  /** `download_latest_pdf(ticker, ir_url)`: the page's anchors come from
      `fetchPage`, the link is resolved by `urlJoin` and fetched by `fetchPdf`.
      Success(None) is "no candidate link"; Success(Some(f)) is the file written. */
  function DownloadLatestPdf(
    ticker: string,
    irUrl: string,
    fetchPage: string -> Option<seq<Anchor>>,
    urlJoin: (string, string) -> string,
    fetchPdf: string -> Option<seq<bv8>>)
    : (r: Result<Option<SavedPdf>, PdfError>)
    ensures r == Failure(PageFetchFailed) <==> fetchPage(irUrl).None?
    ensures fetchPage(irUrl).Some? && SelectPdfLink(fetchPage(irUrl).value).Some?
            && fetchPdf(urlJoin(irUrl, SelectPdfLink(fetchPage(irUrl).value).value)).Some?
      ==> r.Success? && r.value.Some?
    ensures fetchPage(irUrl).Some? ==>
      (r == Success(None) <==> SelectPdfLink(fetchPage(irUrl).value).None?)
    ensures r.Success? && r.value.Some? ==>
      var link := SelectPdfLink(fetchPage(irUrl).value);
      && link.Some?
      && r.value.value.fileName == PdfFileName(ticker)
      && r.value.value.url == urlJoin(irUrl, link.value)
      && Some(r.value.value.content) == fetchPdf(r.value.value.url)
    ensures r == Failure(PdfFetchFailed) ==>
      var link := SelectPdfLink(fetchPage(irUrl).value);
      link.Some? && fetchPdf(urlJoin(irUrl, link.value)).None?
  {
    match fetchPage(irUrl)
    case None => Failure(PageFetchFailed)
    case Some(anchors) =>
      match SelectPdfLink(anchors)
      case None => Success(None)
      case Some(link) =>
        var target := urlJoin(irUrl, link);
        match fetchPdf(target)
        case None => Failure(PdfFetchFailed)
        case Some(content) => Success(Some(SavedPdf(PdfFileName(ticker), target, content)))
  }

  /** Without a qualifying link nothing is downloaded: the outcome does not
      depend on how, or whether, a PDF could be fetched. */
  lemma NoCandidateNoDownload(
    ticker: string,
    irUrl: string,
    fetchPage: string -> Option<seq<Anchor>>,
    urlJoin: (string, string) -> string,
    fetch1: string -> Option<seq<bv8>>,
    fetch2: string -> Option<seq<bv8>>)
    requires fetchPage(irUrl).Some?
    requires forall i | 0 <= i < |fetchPage(irUrl).value| :: !Qualifies(fetchPage(irUrl).value[i])
    ensures DownloadLatestPdf(ticker, irUrl, fetchPage, urlJoin, fetch1) == Success(None)
    ensures DownloadLatestPdf(ticker, irUrl, fetchPage, urlJoin, fetch2) == Success(None)
  {
  }

  /** A keyword split between the end of the link text and the start of the
      address still counts, since the two are searched joined together. */
  lemma KeywordAcrossTextAndHref(text: string, href: string)
    requires |Lower(Strip(text))| >= 4 && Lower(Strip(text))[|Lower(Strip(text))| - 4..] == "earn"
    requires |Lower(href)| >= 4 && Lower(href)[..4] == "ings"
    ensures HasKeyword(SearchText(Anchor(href, text)))
  {
    var t, h := Lower(Strip(text)), Lower(href);
    ContainsAcross(t, h, "earn", "ings");
    assert "earn" + "ings" == Keywords[0];
    assert Contains(SearchText(Anchor(href, text)), Keywords[0]);
  }
}

=== FILE: py_values.dfy ===
/** Python values the model needs beyond plain strings: None, an exception
    from a call, and the truthiness of an optional string. */
module PyValues {

  /** An `Optional[T]` value: absent (None) or present. */
  datatype Option<T> = None | Some(value: T)

  /** What a call gives back: a value when it returns, an error when it raises. */
  datatype Result<R, E> = Success(value: R) | Failure(error: E)

  /** Python's truthiness of an optional string: present and not "". */
  predicate Truthy(s: Option<string>) {
    s.Some? && s.value != ""
  }

  /** Python's `s or ""` on an optional string: its text, or "" for None
      (a present "" gives "" either way). */
  function OrEmpty(s: Option<string>): string {
    if s.Some? then s.value else ""
  }
}

=== FILE: stable_sort.dfy ===
/** Stable sorting, as Python's `sorted(..., key=...)` and
    `Counter.most_common` do it. A stable sort's result is unique, so an
    insertion sort that places each new element after every element that does
    not come after it models Python's merge sort exactly. The order is given as
    a total preorder `le` ("may come before"); elements related both ways are
    tied and keep their input order. */
module StableSort {

  /** `le` is total and transitive: a key comparison such as `<=` on counts or strings. */
  ghost predicate TotalPreorder<T(!new)>(le: (T, T) -> bool) {
    && (forall a, b :: le(a, b) || le(b, a))
    && (forall a, b, c :: le(a, b) && le(b, c) ==> le(a, c))
  }

  ghost predicate Sorted<T>(s: seq<T>, le: (T, T) -> bool) {
    forall i, j | 0 <= i < j < |s| :: le(s[i], s[j])
  }

  /** Inserts `x` after the longest prefix of `s` whose elements may come before it. */
  function Insert<T>(x: T, s: seq<T>, le: (T, T) -> bool): (r: seq<T>)
    ensures |r| == |s| + 1
    ensures multiset(r) == multiset(s) + multiset{x}
    decreases |s|
  {
    if s == [] then [x]
    else if le(s[0], x) then
      assert s == [s[0]] + s[1..];
      [s[0]] + Insert(x, s[1..], le)
    else [x] + s
  }

  /** Stable sort: the elements of `s` in `le` order, ties in input order. */
  function Sort<T>(s: seq<T>, le: (T, T) -> bool): (r: seq<T>)
    ensures |r| == |s|
    ensures multiset(r) == multiset(s)
    decreases |s|
  {
    if s == [] then []
    else
      assert s == s[..|s| - 1] + [s[|s| - 1]];
      Insert(s[|s| - 1], Sort(s[..|s| - 1], le), le)
  }

  lemma MemberOfInsert<T>(x: T, s: seq<T>, le: (T, T) -> bool, y: T)
    requires y in Insert(x, s, le)
    ensures y == x || y in s
  {
    assert y in multiset(Insert(x, s, le));
  }

  lemma {:induction false} InsertSorted<T(!new)>(x: T, s: seq<T>, le: (T, T) -> bool)
    requires TotalPreorder(le)
    requires Sorted(s, le)
    ensures Sorted(Insert(x, s, le), le)
    decreases |s|
  {
    if s != [] {
      var r := Insert(x, s, le);
      if le(s[0], x) {
        var t := Insert(x, s[1..], le);
        InsertSorted(x, s[1..], le);
        assert r == [s[0]] + t;
        forall j | 1 <= j < |r| ensures le(r[0], r[j]) {
          assert r[j] == t[j - 1];
          MemberOfInsert(x, s[1..], le, t[j - 1]);
          if t[j - 1] != x {
            var k :| 0 <= k < |s[1..]| && s[1..][k] == t[j - 1];
            assert s[k + 1] == t[j - 1];
          }
        }
      } else {
        assert r == [x] + s;
        forall j | 1 <= j < |r| ensures le(r[0], r[j]) {
          assert r[j] == s[j - 1];
          assert le(s[0], s[j - 1]) || j == 1;
        }
      }
    }
  }

  /** The result of `Sort` is ordered by `le`. */
  lemma {:induction false} SortSorted<T(!new)>(s: seq<T>, le: (T, T) -> bool)
    requires TotalPreorder(le)
    ensures Sorted(Sort(s, le), le)
    decreases |s|
  {
    if s != [] {
      SortSorted(s[..|s| - 1], le);
      InsertSorted(s[|s| - 1], Sort(s[..|s| - 1], le), le);
    }
  }

  /** The elements of `s` tied with `e` under `le`, in their order in `s`. */
  function Ties<T>(s: seq<T>, e: T, le: (T, T) -> bool): (r: seq<T>)
    ensures |r| <= |s|
    decreases |s|
  {
    if s == [] then []
    else (if le(s[0], e) && le(e, s[0]) then [s[0]] else []) + Ties(s[1..], e, le)
  }

  lemma {:induction false} TiesAppend<T>(a: seq<T>, b: seq<T>, e: T, le: (T, T) -> bool)
    ensures Ties(a + b, e, le) == Ties(a, e, le) + Ties(b, e, le)
    decreases |a|
  {
    if a == [] {
      assert a + b == b;
    } else {
      assert (a + b)[0] == a[0];
      assert (a + b)[1..] == a[1..] + b;
      TiesAppend(a[1..], b, e, le);
    }
  }

  lemma {:induction false} NoTies<T>(s: seq<T>, e: T, le: (T, T) -> bool)
    requires forall i | 0 <= i < |s| :: !(le(s[i], e) && le(e, s[i]))
    ensures Ties(s, e, le) == []
    decreases |s|
  {
    if s != [] {
      NoTies(s[1..], e, le);
    }
  }

  /** Nothing in a sorted sequence that `x` must precede is tied with an element `x` is tied with. */
  lemma NoTiesAfter<T(!new)>(x: T, s: seq<T>, e: T, le: (T, T) -> bool)
    requires TotalPreorder(le)
    requires Sorted(s, le)
    requires s != [] && !le(s[0], x)
    requires le(x, e) && le(e, x)
    ensures Ties(s, e, le) == []
  {
    forall i | 0 <= i < |s| ensures !le(s[i], e) {
      assert i == 0 || le(s[0], s[i]);
    }
    NoTies(s, e, le);
  }

  lemma {:induction false} InsertKeepsTies<T(!new)>(x: T, s: seq<T>, e: T, le: (T, T) -> bool)
    requires TotalPreorder(le)
    requires Sorted(s, le)
    ensures Ties(Insert(x, s, le), e, le) == Ties(s, e, le) + Ties([x], e, le)
    decreases |s|
  {
    if s == [] {
    } else if le(s[0], x) {
      assert Sorted(s[1..], le);
      InsertKeepsTies(x, s[1..], e, le);
      TiesOfInsertBehind(x, s, e, le);
    } else {
      assert Insert(x, s, le) == [x] + s;
      TiesAppend([x], s, e, le);
      if le(x, e) && le(e, x) {
        NoTiesAfter(x, s, e, le);
      } else {
        assert Ties([x], e, le) == [];
      }
    }
  }

  /** The step of `InsertKeepsTies` where `x` goes behind the first element. */
  lemma TiesOfInsertBehind<T>(x: T, s: seq<T>, e: T, le: (T, T) -> bool)
    requires s != [] && le(s[0], x)
    requires Ties(Insert(x, s[1..], le), e, le) == Ties(s[1..], e, le) + Ties([x], e, le)
    ensures Ties(Insert(x, s, le), e, le) == Ties(s, e, le) + Ties([x], e, le)
  {
    var t := Insert(x, s[1..], le);
    assert Insert(x, s, le) == [s[0]] + t;
    TiesAppend([s[0]], t, e, le);
    assert s == [s[0]] + s[1..];
    TiesAppend([s[0]], s[1..], e, le);
  }

  /** Stability: for every element `e`, the elements tied with `e` appear in
      the sorted result in exactly their input order. */
  lemma {:induction false} SortKeepsTies<T(!new)>(s: seq<T>, e: T, le: (T, T) -> bool)
    requires TotalPreorder(le)
    ensures Ties(Sort(s, le), e, le) == Ties(s, e, le)
    decreases |s|
  {
    if s != [] {
      var p := s[..|s| - 1];
      SortKeepsTies(p, e, le);
      SortSorted(p, le);
      InsertKeepsTies(s[|s| - 1], Sort(p, le), e, le);
      TiesOfSortStep(s, e, le);
    }
  }

  /** The step of `SortKeepsTies` for the last element, where the order's laws are no longer needed. */
  lemma TiesOfSortStep<T>(s: seq<T>, e: T, le: (T, T) -> bool)
    requires s != []
    requires Ties(Sort(s[..|s| - 1], le), e, le) == Ties(s[..|s| - 1], e, le)
    requires Ties(Insert(s[|s| - 1], Sort(s[..|s| - 1], le), le), e, le)
          == Ties(Sort(s[..|s| - 1], le), e, le) + Ties([s[|s| - 1]], e, le)
    ensures Ties(Sort(s, le), e, le) == Ties(s, e, le)
  {
    var p := s[..|s| - 1];
    var x := s[|s| - 1];
    assert Sort(s, le) == Insert(x, Sort(p, le), le);
    TiesAppend(p, [x], e, le);
    LastSplit(s);
  }

  lemma LastSplit<T>(s: seq<T>)
    requires s != []
    ensures s[..|s| - 1] + [s[|s| - 1]] == s
  {
  }

  /** Elements of `s` are numbered by a strictly increasing `rank`. */
  ghost predicate StrictlyRanked<T>(s: seq<T>, rank: T -> int) {
    forall i, j | 0 <= i < j < |s| :: rank(s[i]) < rank(s[j])
  }

  /** Whenever a later element may also come before an earlier one (they are
      tied), the earlier one has the smaller rank. */
  ghost predicate TiesByRank<T>(s: seq<T>, le: (T, T) -> bool, rank: T -> int) {
    forall i, j | 0 <= i < j < |s| && le(s[j], s[i]) :: rank(s[i]) < rank(s[j])
  }

  lemma {:induction false} InsertTiesByRank<T(!new)>(x: T, s: seq<T>, le: (T, T) -> bool, rank: T -> int)
    requires TotalPreorder(le)
    requires Sorted(s, le)
    requires TiesByRank(s, le, rank)
    requires forall i | 0 <= i < |s| :: rank(s[i]) < rank(x)
    ensures TiesByRank(Insert(x, s, le), le, rank)
    decreases |s|
  {
    if s != [] {
      var r := Insert(x, s, le);
      if le(s[0], x) {
        var t := Insert(x, s[1..], le);
        InsertTiesByRank(x, s[1..], le, rank);
        assert r == [s[0]] + t;
        forall j | 1 <= j < |r| && le(r[j], r[0]) ensures rank(r[0]) < rank(r[j]) {
          assert r[j] == t[j - 1];
          MemberOfInsert(x, s[1..], le, t[j - 1]);
          if t[j - 1] != x {
            var k :| 0 <= k < |s[1..]| && s[1..][k] == t[j - 1];
            assert s[k + 1] == t[j - 1];
          }
        }
      } else {
        assert r == [x] + s;
        forall j | 1 <= j < |r| ensures !le(r[j], r[0]) {
          assert r[j] == s[j - 1];
          assert j == 1 || le(s[0], s[j - 1]);
        }
      }
    }
  }

  /** Stability stated with a rank: sorting a sequence listed in increasing
      rank leaves every pair of tied elements in increasing rank. */
  lemma {:induction false} SortTiesByRank<T(!new)>(s: seq<T>, le: (T, T) -> bool, rank: T -> int)
    requires TotalPreorder(le)
    requires StrictlyRanked(s, rank)
    ensures TiesByRank(Sort(s, le), le, rank)
    decreases |s|
  {
    if s != [] {
      var p := s[..|s| - 1];
      var x := s[|s| - 1];
      SortTiesByRank(p, le, rank);
      SortSorted(p, le);
      var t := Sort(p, le);
      forall i | 0 <= i < |t| ensures rank(t[i]) < rank(x) {
        assert t[i] in multiset(p);
        var k :| 0 <= k < |p| && p[k] == t[i];
      }
      InsertTiesByRank(x, t, le, rank);
    }
  }
}

=== FILE: text.dfy ===
/** The string operations the services rely on, restricted to ASCII:
    `str.lower`, `str.upper`, `str.isalpha`, `str.strip`, `str.split()`,
    `sep.join(...)` and the substring test `sub in s`. */
module Text {

  /** Python's whitespace for `split()`/`strip()` among ASCII characters:
      space, \t \n \v \f \r and the separators \x1c-\x1f. */
  predicate IsSpace(c: char) {
    c == ' ' || (9 <= c as int <= 13) || (28 <= c as int <= 31)
  }

  predicate IsUpper(c: char) { 'A' <= c <= 'Z' }

  predicate IsLower(c: char) { 'a' <= c <= 'z' }

  /** `str.isalpha` on an ASCII character. */
  predicate IsAlpha(c: char) { IsUpper(c) || IsLower(c) }

  predicate IsDigit(c: char) { '0' <= c <= '9' }

  function LowerChar(c: char): (d: char)
    ensures !IsUpper(d)
    ensures IsAlpha(d) <==> IsAlpha(c)
    ensures IsSpace(d) <==> IsSpace(c)
  {
    if IsUpper(c) then (c as int + 32) as char else c
  }

  function UpperChar(c: char): (d: char)
    ensures !IsLower(d)
    ensures IsAlpha(d) <==> IsAlpha(c)
    ensures IsDigit(d) <==> IsDigit(c)
  {
    if IsLower(c) then (c as int - 32) as char else c
  }

  /** ASCII lower-casing. */
  function Lower(s: string): (r: string)
    ensures |r| == |s|
    ensures forall i | 0 <= i < |s| :: r[i] == LowerChar(s[i])
  {
    seq(|s|, i requires 0 <= i < |s| => LowerChar(s[i]))
  }

  /** ASCII upper-casing. */
  function Upper(s: string): (r: string)
    ensures |r| == |s|
    ensures forall i | 0 <= i < |s| :: r[i] == UpperChar(s[i])
  {
    seq(|s|, i requires 0 <= i < |s| => UpperChar(s[i]))
  }

  lemma UpperIdempotent(s: string)
    ensures Upper(Upper(s)) == Upper(s)
  {
  }

  /** Lower-casing leaves a string without upper-case letters as it is. */
  lemma LowerKeeps(s: string)
    requires forall i | 0 <= i < |s| :: !IsUpper(s[i])
    ensures Lower(s) == s
  {
  }

  /** Upper-casing leaves a string without lower-case letters as it is. */
  lemma UpperKeeps(s: string)
    requires forall i | 0 <= i < |s| :: !IsLower(s[i])
    ensures Upper(s) == s
  {
  }

  lemma LowerAppend(a: string, b: string)
    ensures Lower(a + b) == Lower(a) + Lower(b)
  {
  }

  /** `s.lstrip()` */
  /** Two lower-cased strings side by side: no upper-case letter, and the
      second one intact after the first. */
  lemma LowerPair(x: string, y: string)
    ensures |Lower(x) + Lower(y)| == |x| + |y|
    ensures (Lower(x) + Lower(y))[|x|..] == Lower(y)
    ensures forall i | 0 <= i < |x| + |y| :: !IsUpper((Lower(x) + Lower(y))[i])
  {
    LowerAppend(x, y);
  }

  function TrimStart(s: string): (r: string)
    ensures |r| <= |s| && r == s[|s| - |r|..]
    ensures forall i | 0 <= i < |s| - |r| :: IsSpace(s[i])
    ensures r == [] || !IsSpace(r[0])
  {
    if s != [] && IsSpace(s[0]) then TrimStart(s[1..]) else s
  }

  /** `s.rstrip()` */
  function TrimEnd(s: string): (r: string)
    ensures |r| <= |s| && r == s[..|r|]
    ensures forall i | |r| <= i < |s| :: IsSpace(s[i])
    ensures r == [] || !IsSpace(r[|r| - 1])
  {
    if s != [] && IsSpace(s[|s| - 1]) then TrimEnd(s[..|s| - 1]) else s
  }

  /** How many whitespace characters `s` starts with. */
  function LeadingSpaces(s: string): (k: nat)
    ensures k <= |s|
    ensures forall i | 0 <= i < k :: IsSpace(s[i])
    ensures k == |s| || !IsSpace(s[k])
  {
    |s| - |TrimStart(s)|
  }

  /** `s.strip()`: what is left after dropping whitespace at both ends. */
  function Strip(s: string): (r: string)
    ensures |r| <= |s|
    ensures r == [] <==> forall i | 0 <= i < |s| :: IsSpace(s[i])
    ensures r == [] || (!IsSpace(r[0]) && !IsSpace(r[|r| - 1]))
  {
    var t := TrimStart(s);
    var r := TrimEnd(t);
    assert r == [] ==> forall i | 0 <= i < |s| :: IsSpace(s[i]) by {
      if r == [] {
        assert t == [];
      }
    }
    r
  }

  /** The stripped string is the slice of `s` between its leading and its
      trailing whitespace. */
  lemma StripSlice(s: string)
    ensures var k := LeadingSpaces(s);
      && k + |Strip(s)| <= |s|
      && Strip(s) == s[k..k + |Strip(s)|]
      && forall i | k + |Strip(s)| <= i < |s| :: IsSpace(s[i])
  {
  }

  /** Stripping leaves a string that neither starts nor ends with whitespace as it is. */
  lemma StripKeeps(s: string)
    requires s == [] || (!IsSpace(s[0]) && !IsSpace(s[|s| - 1]))
    ensures Strip(s) == s
  {
  }

  /** `sub in s` for strings. */
  predicate Contains(s: string, sub: string)
    decreases |s|
  {
    sub <= s || (s != [] && Contains(s[1..], sub))
  }

  /** A string holds only substrings no longer than itself. */
  lemma {:induction false} ContainsLength(s: string, sub: string)
    ensures Contains(s, sub) ==> |sub| <= |s|
    decreases |s|
  {
    if s != [] && !(sub <= s) {
      ContainsLength(s[1..], sub);
    }
  }

  lemma {:induction false} ContainsAt(s: string, sub: string, i: nat)
    requires i + |sub| <= |s| && s[i..i + |sub|] == sub
    ensures Contains(s, sub)
    decreases i
  {
    if i > 0 {
      assert s[1..][i - 1..i - 1 + |sub|] == s[i..i + |sub|];
      ContainsAt(s[1..], sub, i - 1);
    }
  }

  lemma {:induction false} ContainsWitness(s: string, sub: string) returns (i: nat)
    requires Contains(s, sub)
    ensures i + |sub| <= |s| && s[i..i + |sub|] == sub
    decreases |s|
  {
    if sub <= s {
      i := 0;
      assert s[0..|sub|] == sub;
    } else {
      var j := ContainsWitness(s[1..], sub);
      i := j + 1;
      assert s[i..i + |sub|] == s[1..][j..j + |sub|];
    }
  }

  /** A substring of a string stays a substring when text is added around it. */
  lemma ContainsExtend(a: string, sub: string, before: string, after: string)
    requires Contains(a, sub)
    ensures Contains(before + a + after, sub)
  {
    var i := ContainsWitness(a, sub);
    assert (before + a + after)[|before| + i..|before| + i + |sub|] == a[i..i + |sub|];
    ContainsAt(before + a + after, sub, |before| + i);
  }

  /** A match may straddle a concatenation: the end of `x` followed by the
      start of `y`. */
  lemma ContainsAcross(x: string, y: string, u: string, v: string)
    requires |u| <= |x| && x[|x| - |u|..] == u
    requires |v| <= |y| && y[..|v|] == v
    ensures Contains(x + y, u + v)
  {
    var i := |x| - |u|;
    SliceAcross(x, y, i, |v|);
    ContainsAt(x + y, u + v, i);
  }

  lemma SliceAcross<T>(x: seq<T>, y: seq<T>, i: nat, j: nat)
    requires i <= |x| && j <= |y|
    ensures (x + y)[i..|x| + j] == x[i..] + y[..j]
  {
  }

  /** A string lacking one of the characters of `sub` does not contain `sub`. */
  lemma {:induction false} MissingCharNotContained(s: string, sub: string, j: nat)
    requires j < |sub| && sub[j] !in s
    ensures !Contains(s, sub)
    decreases |s|
  {
    if |sub| <= |s| {
      assert s[j] in s;
    }
    if s != [] {
      assert forall c | c in s[1..] :: c in s;
      MissingCharNotContained(s[1..], sub, j);
    }
  }

  /** A two-character string found in `a + b` lies in `a`, in `b`, or across the seam. */
  lemma ContainsPairSplit(a: string, b: string, sub: string)
    requires |sub| == 2 && Contains(a + b, sub)
    ensures || Contains(a, sub)
            || Contains(b, sub)
            || (a != [] && b != [] && a[|a| - 1] == sub[0] && b[0] == sub[1])
  {
    var i := ContainsWitness(a + b, sub);
    PairAt(a, b, sub, i);
  }

  /** Two strings lacking a two-character `sub`, joined where no match
      straddles the seam, still lack it. */
  lemma NoPairAcross(a: string, b: string, sub: string)
    requires |sub| == 2 && !Contains(a, sub) && !Contains(b, sub)
    requires a == [] || b == [] || a[|a| - 1] != sub[0] || b[0] != sub[1]
    ensures !Contains(a + b, sub)
  {
    if Contains(a + b, sub) {
      ContainsPairSplit(a, b, sub);
    }
  }

  lemma PairAt(a: string, b: string, sub: string, i: nat)
    requires |sub| == 2 && i + 2 <= |a + b| && (a + b)[i..i + 2] == sub
    ensures || Contains(a, sub)
            || Contains(b, sub)
            || (a != [] && b != [] && a[|a| - 1] == sub[0] && b[0] == sub[1])
  {
    var s := a + b;
    if i + 2 <= |a| {
      assert a[i..i + 2] == s[i..i + 2];
      ContainsAt(a, sub, i);
    } else if i >= |a| {
      assert b[i - |a|..i - |a| + 2] == s[i..i + 2];
      ContainsAt(b, sub, i - |a|);
    } else {
      assert s[i..i + 2][0] == s[i] == a[|a| - 1];
      assert s[i..i + 2][1] == s[i + 1] == b[0];
    }
  }

  /** A non-empty run of non-whitespace characters: one token of `split()`. */
  predicate IsWord(t: string) {
    t != [] && forall i | 0 <= i < |t| :: !IsSpace(t[i])
  }

  /** Length of the leading run of non-whitespace characters. */
  function WordEnd(s: string): (k: nat)
    ensures k <= |s|
    ensures forall i | 0 <= i < k :: !IsSpace(s[i])
    ensures k < |s| ==> IsSpace(s[k])
  {
    if s == [] || IsSpace(s[0]) then 0 else 1 + WordEnd(s[1..])
  }

  /** `s.split()`: the maximal runs of non-whitespace characters, in order. */
  function Split(s: string): seq<string>
    decreases |s|
  {
    if s == [] then []
    else if IsSpace(s[0]) then Split(s[1..])
    else
      var k := WordEnd(s);
      [s[..k]] + Split(s[k..])
  }

  /** The strings of `ts` with `sep` between each neighbouring pair. */
  function Join(ts: seq<string>, sep: string): string
    decreases |ts|
  {
    if ts == [] then []
    else if |ts| == 1 then ts[0]
    else ts[0] + sep + Join(ts[1..], sep)
  }

  /** The concatenation of a sequence of sequences. */
  function Flatten<T>(xss: seq<seq<T>>): seq<T>
    decreases |xss|
  {
    if xss == [] then [] else xss[0] + Flatten(xss[1..])
  }

  lemma {:induction false} WordEndOfConcat(a: string, b: string)
    requires a != []
    requires IsSpace(a[|a| - 1]) || b == [] || IsSpace(b[0])
    ensures WordEnd(a + b) == WordEnd(a)
    decreases |a|
  {
    assert (a + b)[0] == a[0];
    if !IsSpace(a[0]) {
      assert (a + b)[1..] == a[1..] + b;
      if |a| == 1 {
        assert a[1..] == [];
      } else {
        WordEndOfConcat(a[1..], b);
      }
    }
  }

  /** Splitting distributes over a concatenation that meets at whitespace:
      no token is glued together from both sides. */
  lemma {:induction false} SplitAppend(a: string, b: string)
    requires a == [] || b == [] || IsSpace(a[|a| - 1]) || IsSpace(b[0])
    ensures Split(a + b) == Split(a) + Split(b)
    decreases |a|
  {
    if a == [] {
      assert a + b == b;
    } else if b == [] {
      assert a + b == a;
    } else if IsSpace(a[0]) {
      SplitAppend(a[1..], b);
      SplitAppendSpace(a, b);
    } else {
      var k := WordEnd(a);
      if k < |a| {
        SplitAppend(a[k..], b);
      } else {
        assert a[k..] + b == b;
      }
      SplitAppendWord(a, b);
    }
  }

  /** The step of `SplitAppend` past leading whitespace. */
  lemma SplitAppendSpace(a: string, b: string)
    requires a != [] && IsSpace(a[0])
    requires Split(a[1..] + b) == Split(a[1..]) + Split(b)
    ensures Split(a + b) == Split(a) + Split(b)
  {
    assert (a + b)[1..] == a[1..] + b;
  }

  /** The step of `SplitAppend` past a leading word. */
  lemma SplitAppendWord(a: string, b: string)
    requires a != [] && !IsSpace(a[0])
    requires IsSpace(a[|a| - 1]) || b == [] || IsSpace(b[0])
    requires Split(a[WordEnd(a)..] + b) == Split(a[WordEnd(a)..]) + Split(b)
    ensures Split(a + b) == Split(a) + Split(b)
  {
    var k := WordEnd(a);
    SplitConcatHead(a, b);
    SplitAtWord(a);
    ConsAppend(Split(a + b), Split(a), Split(b), Split(a[k..] + b), Split(a[k..]), [a[..k]]);
  }

  /** Sequence algebra for the word step, kept apart so that no `Split` term
      is unfolded while it is done. */
  lemma ConsAppend<T>(xy: seq<T>, x: seq<T>, y: seq<T>, ry: seq<T>, r: seq<T>, h: seq<T>)
    requires xy == h + ry && x == h + r && ry == r + y
    ensures xy == x + y
  {
  }

  /** When `a` starts with a word and meets `b` at whitespace, `a + b` splits
      into that word and the split of the rest of `a` followed by `b`. */
  lemma SplitConcatHead(a: string, b: string)
    requires a != [] && !IsSpace(a[0])
    requires IsSpace(a[|a| - 1]) || b == [] || IsSpace(b[0])
    ensures Split(a + b) == [a[..WordEnd(a)]] + Split(a[WordEnd(a)..] + b)
  {
    WordEndOfConcat(a, b);
    SliceConcat(a, b, WordEnd(a));
    SplitAtWord(a + b);
  }

  lemma SliceConcat<T>(a: seq<T>, b: seq<T>, k: nat)
    requires 0 < k <= |a|
    ensures (a + b)[0] == a[0]
    ensures (a + b)[..k] == a[..k] && (a + b)[k..] == a[k..] + b
  {
  }

  /** A string starting with a word splits into that word and the split of the rest. */
  lemma SplitAtWord(s: string)
    requires s != [] && !IsSpace(s[0])
    ensures Split(s) == [s[..WordEnd(s)]] + Split(s[WordEnd(s)..])
  {
  }

  /** Every token of `split()` is a word. */
  lemma {:induction false} SplitTokensAreWords(s: string)
    ensures forall t | t in Split(s) :: IsWord(t)
    decreases |s|
  {
    if s != [] {
      if IsSpace(s[0]) {
        SplitTokensAreWords(s[1..]);
      } else {
        SplitTokensAreWords(s[WordEnd(s)..]);
      }
    }
  }

  lemma SplitWord(t: string)
    requires IsWord(t)
    ensures Split(t) == [t]
  {
    assert t[..|t|] == t;
    assert t[|t|..] == [];
  }

  /** Joining the pages with one space and splitting gives the tokens of each
      page in turn. */
  lemma {:induction false} SplitJoin(ps: seq<string>)
    ensures Split(Join(ps, " ")) == Flatten(seq(|ps|, i requires 0 <= i < |ps| => Split(ps[i])))
    decreases |ps|
  {
    var parts := seq(|ps|, i requires 0 <= i < |ps| => Split(ps[i]));
    if ps == [] {
    } else if |ps| == 1 {
      assert Flatten(parts) == parts[0] + Flatten(parts[1..]);
      assert parts[1..] == [];
    } else {
      var rest := Join(ps[1..], " ");
      assert Join(ps, " ") == ps[0] + " " + rest;
      SplitAroundSpace(ps[0], rest);
      SplitJoin(ps[1..]);
      assert parts[1..] == seq(|ps[1..]|, i requires 0 <= i < |ps[1..]| => Split(ps[1..][i]));
      assert Flatten(parts) == parts[0] + Flatten(parts[1..]);
    }
  }

  /** A single space separates the words on its two sides. */
  lemma SplitAroundSpace(a: string, b: string)
    ensures Split(a + " " + b) == Split(a) + Split(b)
  {
    SplitAppend(" ", b);
    assert Split(" ") == [];
    assert Split(" " + b) == Split(b);
    SplitAppend(a, " " + b);
    assert a + " " + b == a + (" " + b);
  }

  /** `split()` undoes `" ".join` on a list of tokens. */
  lemma {:induction false} SplitJoinWords(ts: seq<string>)
    requires forall i | 0 <= i < |ts| :: IsWord(ts[i])
    ensures Split(Join(ts, " ")) == ts
    decreases |ts|
  {
    SplitJoin(ts);
    var parts := seq(|ts|, i requires 0 <= i < |ts| => Split(ts[i]));
    forall i | 0 <= i < |ts| ensures parts[i] == [ts[i]] {
      SplitWord(ts[i]);
    }
    FlattenSingletons(ts, parts);
  }

  lemma {:induction false} FlattenSingletons<T>(xs: seq<T>, parts: seq<seq<T>>)
    requires |parts| == |xs|
    requires forall i | 0 <= i < |xs| :: parts[i] == [xs[i]]
    ensures Flatten(parts) == xs
    decreases |xs|
  {
    if xs != [] {
      FlattenSingletons(xs[1..], parts[1..]);
    }
  }

  lemma {:induction false} FlattenAppend<T>(a: seq<seq<T>>, b: seq<seq<T>>)
    ensures Flatten(a + b) == Flatten(a) + Flatten(b)
    decreases |a|
  {
    if a != [] {
      assert (a + b)[0] == a[0];
      assert (a + b)[1..] == a[1..] + b;
      FlattenAppend(a[1..], b);
    } else {
      assert a + b == b;
    }
  }
}

=== FILE: watchlist.dfy ===
/** The watch-list logic of the desktop app (app/main.py): adding or
    replacing a company, refreshing every company, the table order, the
    calendar and notification filters, and recording a downloaded PDF.
    The provider, the clock and the download and analysis services are
    parameters; None or `Raised` stands for a call that raised. */
module Watchlist {
  import opened PyValues
  import opened Text
  import opened StableSort
  import opened DataProvider
  import opened Models

  /** What the provider gives for a ticker, None when it raises. */
  type Provider = string -> Option<EarningsInfo>

  /** A ticker as typed: surrounding whitespace dropped, upper-cased. */
  function NormalizeTicker(input: string): (t: string)
    ensures |t| <= |input|
    ensures t == [] <==> forall i | 0 <= i < |input| :: IsSpace(input[i])
    ensures forall i | 0 <= i < |t| :: !IsLower(t[i])
    ensures t == [] || (!IsSpace(t[0]) && !IsSpace(t[|t| - 1]))
    ensures t == Upper(Strip(input))
  {
    var s := Strip(input);
    UpperKeepsEnds(s);
    Upper(s)
  }

  lemma UpperKeepsSpace(c: char)
    ensures IsSpace(UpperChar(c)) == IsSpace(c)
  {
  }

  /** Upper-casing neither adds nor removes whitespace at either end. */
  lemma UpperKeepsEnds(s: string)
    ensures var t := Upper(s);
      t == [] || (IsSpace(t[0]) == IsSpace(s[0]) && IsSpace(t[|t| - 1]) == IsSpace(s[|s| - 1]))
  {
    if s != [] {
      UpperKeepsSpace(s[0]);
      UpperKeepsSpace(s[|s| - 1]);
    }
  }

  /** Typing a normalised ticker again changes nothing. */
  lemma NormalizeTickerIdempotent(input: string)
    ensures NormalizeTicker(NormalizeTicker(input)) == NormalizeTicker(input)
  {
    NormalFixed(NormalizeTicker(input));
  }

  /** A ticker without surrounding whitespace or lower case is already normal. */
  lemma NormalFixed(t: string)
    requires t == [] || (!IsSpace(t[0]) && !IsSpace(t[|t| - 1]))
    requires forall i | 0 <= i < |t| :: !IsLower(t[i])
    ensures NormalizeTicker(t) == t
  {
    var s := Strip(t);
    StripKeeps(t);
    assert s == t;
    UpperKeeps(t);
    assert Upper(s) == t;
  }

  /** The provider of app/services/data_provider.py echoes a normalised ticker
      unchanged, the premise of the upsert lemmas below. */
  lemma ProviderEchoesTicker(
    input: string,
    quote: Option<Quote>,
    parseDate: string -> Option<string>,
    formatTimestamp: int -> Option<string>)
    ensures var r := FetchEarningsInfo(NormalizeTicker(input), quote, parseDate, formatTimestamp);
      r.Success? ==> r.value.ticker == NormalizeTicker(input)
  {
    UpperIdempotent(Strip(input));
  }

  /** The items whose ticker is not `t`, in list order. */
  function Without(items: seq<WatchItem>, t: string): (r: seq<WatchItem>)
    ensures |r| <= |items|
    ensures forall i | 0 <= i < |r| :: r[i].ticker != t
    decreases |items|
  {
    if items == [] then []
    else (if items[0].ticker != t then [items[0]] else []) + Without(items[1..], t)
  }

  lemma {:induction false} WithoutMembership(items: seq<WatchItem>, t: string, x: WatchItem)
    ensures x in Without(items, t) <==> x in items && x.ticker != t
    decreases |items|
  {
    if items != [] {
      WithoutMembership(items[1..], t, x);
      assert items == [items[0]] + items[1..];
    }
  }

  /** An item without the ticker is kept as it is. */
  lemma {:induction false} WithoutOthers(items: seq<WatchItem>, t: string)
    requires forall i | 0 <= i < |items| :: items[i].ticker != t
    ensures Without(items, t) == items
    decreases |items|
  {
    if items != [] {
      WithoutOthers(items[1..], t);
    }
  }

  lemma {:induction false} WithoutAppend(a: seq<WatchItem>, b: seq<WatchItem>, t: string)
    ensures Without(a + b, t) == Without(a, t) + Without(b, t)
    decreases |a|
  {
    if a == [] {
      assert a + b == b;
    } else {
      assert (a + b)[0] == a[0];
      assert (a + b)[1..] == a[1..] + b;
      WithoutAppend(a[1..], b, t);
    }
  }

  /** Number of items with ticker `t`. */
  function CountTicker(items: seq<WatchItem>, t: string): (n: nat)
    ensures n <= |items|
    ensures n == 0 <==> forall i | 0 <= i < |items| :: items[i].ticker != t
    decreases |items|
  {
    if items == [] then 0
    else (if items[0].ticker == t then 1 else 0) + CountTicker(items[1..], t)
  }

  lemma {:induction false} CountTickerAppend(a: seq<WatchItem>, b: seq<WatchItem>, t: string)
    ensures CountTicker(a + b, t) == CountTicker(a, t) + CountTicker(b, t)
    decreases |a|
  {
    if a == [] {
      assert a + b == b;
    } else {
      assert (a + b)[0] == a[0];
      assert (a + b)[1..] == a[1..] + b;
      CountTickerAppend(a[1..], b, t);
    }
  }

  /** The record `_add_item` builds from the provider's answer. */
  function NewEntry(info: EarningsInfo, irInput: string, now: string): (w: WatchItem)
    ensures w.ticker == info.ticker && w.companyName == info.companyName
    ensures w.earningsDate == Some(info.earningsDate) && w.marketSession == info.session.Label()
    ensures w.irUrl.Some? <==> Strip(irInput) != []
    ensures w.irUrl.Some? ==> w.irUrl.value == Strip(irInput)
    ensures w.lastPdfPath == None && w.updatedAt == Some(now)
  {
    var ir := Strip(irInput);
    var w := NewWatchItem(info.ticker, info.companyName, Some(info.earningsDate), info.session.Label());
    SetUpdatedNow(w.(irUrl := if ir == [] then None else Some(ir)), now)
  }

  /** `_add_item`: the typed ticker is normalised and looked up; on success
      every item with that ticker is dropped and the new record appended.
      An empty ticker or a failed lookup leaves the list as it was. */
  function AddItem(items: seq<WatchItem>, tickerInput: string, irInput: string, provider: Provider, now: string)
    : (r: seq<WatchItem>)
    ensures var t := NormalizeTicker(tickerInput);
      t == [] || provider(t).None? ==> r == items
    ensures var t := NormalizeTicker(tickerInput);
      t != [] && provider(t).Some? ==>
        && |r| > 0
        && r[..|r| - 1] == Without(items, t)
        && r[|r| - 1] == NewEntry(provider(t).value, irInput, now)
  {
    var t := NormalizeTicker(tickerInput);
    if t == [] then items
    else
      match provider(t)
      case None => items
      case Some(info) => Without(items, t) + [NewEntry(info, irInput, now)]
  }

  /** Upsert: when the provider echoes the ticker, after an add exactly one
      item has it, that item is last, and every other item is kept in order. */
  lemma AddItemUpserts(items: seq<WatchItem>, tickerInput: string, irInput: string, provider: Provider, now: string)
    ensures var t := NormalizeTicker(tickerInput);
      var r := AddItem(items, tickerInput, irInput, provider, now);
      t != [] && provider(t).Some? && provider(t).value.ticker == t ==>
        && CountTicker(r, t) == 1
        && r[|r| - 1].ticker == t
        && Without(r, t) == Without(items, t)
  {
    var t := NormalizeTicker(tickerInput);
    if t != [] && provider(t).Some? && provider(t).value.ticker == t {
      var r := AddItem(items, tickerInput, irInput, provider, now);
      LastSplit(r);
      UpsertShape(items, t, r[|r| - 1], r);
    }
  }

  /** The other items followed by one record with the ticker hold it once, last. */
  lemma UpsertShape(items: seq<WatchItem>, t: string, e: WatchItem, r: seq<WatchItem>)
    requires e.ticker == t && r == Without(items, t) + [e]
    ensures CountTicker(r, t) == 1 && r[|r| - 1].ticker == t && Without(r, t) == Without(items, t)
  {
    var w := Without(items, t);
    CountTickerAppend(w, [e], t);
    assert CountTicker(w, t) == 0;
    assert [e][1..] == [];
    WithoutAppend(w, [e], t);
    WithoutOthers(w, t);
    assert Without([e], t) == [];
  }

  /** Adding a ticker again forgets the PDF recorded for it: the added item
      has none, and when the provider echoes the ticker no item with it keeps one. */
  lemma ReAddForgetsPdf(items: seq<WatchItem>, tickerInput: string, irInput: string, provider: Provider, now: string)
    ensures var t := NormalizeTicker(tickerInput);
      var r := AddItem(items, tickerInput, irInput, provider, now);
      t != [] && provider(t).Some? ==>
        && r[|r| - 1].lastPdfPath == None
        && (provider(t).value.ticker == t ==> forall x | x in r && x.ticker == t :: x.lastPdfPath == None)
    ensures var t := NormalizeTicker(tickerInput);
      t != [] && provider(t).Some? ==>
        forall x | x in AddItem(items, tickerInput, irInput, provider, now) && x.ticker == provider(t).value.ticker ::
          x.lastPdfPath == None || x in items
  {
    var t := NormalizeTicker(tickerInput);
    if t != [] && provider(t).Some? {
      var r := AddItem(items, tickerInput, irInput, provider, now);
      LastSplit(r);
      AddedHasNoPdf(items, t, r[|r| - 1], r);
      if provider(t).value.ticker == t {
        OnlyAddedHasTicker(items, t, r[|r| - 1], r);
      }
    }
  }

  /** The other items followed by one record with the ticker: that record is
      the only item with the ticker. */
  lemma OnlyAddedHasTicker(items: seq<WatchItem>, t: string, e: WatchItem, r: seq<WatchItem>)
    requires e.ticker == t && r == Without(items, t) + [e]
    ensures forall x | x in r && x.ticker == t :: x == e
  {
  }

  /** The other items followed by a record without a PDF: every item either
      was there before or has no PDF. */
  lemma AddedHasNoPdf(items: seq<WatchItem>, t: string, e: WatchItem, r: seq<WatchItem>)
    requires e.lastPdfPath == None && r == Without(items, t) + [e]
    ensures forall x | x in r :: x.lastPdfPath == None || x in items
  {
    forall x | x in r
      ensures x.lastPdfPath == None || x in items
    {
      if x != e {
        assert x in Without(items, t);
        WithoutMembership(items, t, x);
      }
    }
  }

  /** An item after a successful refresh with the provider's answer `info` at time `now`. */
  function Refresh(item: WatchItem, info: EarningsInfo, now: string): (r: WatchItem)
    ensures r.ticker == item.ticker && r.irUrl == item.irUrl && r.lastPdfPath == item.lastPdfPath
    ensures r.companyName == info.companyName && r.earningsDate == Some(info.earningsDate)
    ensures r.marketSession == info.session.Label() && r.updatedAt == Some(now)
  {
    SetUpdatedNow(item.(companyName := info.companyName,
                        earningsDate := Some(info.earningsDate),
                        marketSession := info.session.Label()), now)
  }

  /** How many items the provider resolves. */
  function CountResolved(items: seq<WatchItem>, provider: Provider): (n: nat)
    ensures n <= |items|
    decreases |items|
  {
    if items == [] then 0
    else CountResolved(items[..|items| - 1], provider) + (if provider(items[|items| - 1].ticker).Some? then 1 else 0)
  }

  /** No success is counted exactly when every lookup fails, and every item
      is counted exactly when every lookup succeeds. */
  lemma {:induction false} CountResolvedExtremes(items: seq<WatchItem>, provider: Provider)
    ensures CountResolved(items, provider) == 0 <==> forall i | 0 <= i < |items| :: provider(items[i].ticker).None?
    ensures CountResolved(items, provider) == |items| <==> forall i | 0 <= i < |items| :: provider(items[i].ticker).Some?
    decreases |items|
  {
    if items != [] {
      var p := items[..|items| - 1];
      CountResolvedExtremes(p, provider);
      assert forall i | 0 <= i < |p| :: p[i] == items[i];
    }
  }

  /** One item after its lookup: refreshed on success, untouched on failure. */
  function RefreshOne(item: WatchItem, provider: Provider, now: string): (r: WatchItem)
    ensures r.ticker == item.ticker && r.irUrl == item.irUrl && r.lastPdfPath == item.lastPdfPath
    ensures provider(item.ticker).None? ==> r == item
    ensures provider(item.ticker).Some? ==>
      var info := provider(item.ticker).value;
      && r.companyName == info.companyName
      && r.earningsDate == Some(info.earningsDate)
      && r.marketSession == info.session.Label()
      && r.updatedAt == Some(now)
  {
    match provider(item.ticker)
    case None => item
    case Some(info) => Refresh(item, info, now)
  }

  lemma CountResolvedSnoc(items: seq<WatchItem>, i: nat, provider: Provider)
    requires i < |items|
    ensures CountResolved(items[..i + 1], provider)
         == CountResolved(items[..i], provider) + (if provider(items[i].ticker).Some? then 1 else 0)
  {
    assert items[..i + 1][..i] == items[..i];
  }

  /** What `_refresh_all` promises of each item, given the item before and after. */
  ghost predicate RefreshedAsPromised(before: WatchItem, after: WatchItem, provider: Provider, now: string) {
    && after.ticker == before.ticker
    && after.irUrl == before.irUrl
    && after.lastPdfPath == before.lastPdfPath
    && (provider(before.ticker).None? ==> after == before)
    && (provider(before.ticker).Some? ==>
          var info := provider(before.ticker).value;
          && after.companyName == info.companyName
          && after.earningsDate == Some(info.earningsDate)
          && after.marketSession == info.session.Label()
          && after.updatedAt == Some(now))
  }

  /** `_refresh_all`: every item is looked up in turn; `clock(i)` is the time
      when item `i` is stamped. A failed lookup skips the item, which keeps
      every field; a successful one overwrites the name, date, session and
      update time and nothing else. The count is the number of successful lookups. */
  method RefreshAll(items: seq<WatchItem>, provider: Provider, clock: nat -> string)
    returns (refreshed: seq<WatchItem>, count: nat)
    ensures |refreshed| == |items|
    ensures forall i | 0 <= i < |items| :: RefreshedAsPromised(items[i], refreshed[i], provider, clock(i))
    ensures count == CountResolved(items, provider)
  {
    refreshed := [];
    count := 0;
    for i := 0 to |items|
      invariant |refreshed| == i
      invariant forall j | 0 <= j < i :: refreshed[j] == RefreshOne(items[j], provider, clock(j))
      invariant count == CountResolved(items[..i], provider)
    {
      CountResolvedSnoc(items, i, provider);
      refreshed := refreshed + [RefreshOne(items[i], provider, clock(i))];
      if provider(items[i].ticker).Some? {
        count := count + 1;
      }
    }
    assert items[..|items|] == items;
  }

  /** The table's sort key: the earnings date, or a date after every real one. */
  function SortKey(item: WatchItem): (k: string)
    ensures k != []
    ensures Truthy(item.earningsDate) ==> k == item.earningsDate.value
    ensures k == "9999-99-99" <==> !Truthy(item.earningsDate) || item.earningsDate.value == "9999-99-99"
  {
    if Truthy(item.earningsDate) then item.earningsDate.value else "9999-99-99"
  }

  /** Python's `a <= b` on strings: lexicographic by code point. */
  function LexLe(a: string, b: string): bool
    decreases |a|
  {
    a == [] || (b != [] && (a[0] < b[0] || (a[0] == b[0] && LexLe(a[1..], b[1..]))))
  }

  lemma {:induction false} LexLeTotal(a: string, b: string)
    ensures LexLe(a, b) || LexLe(b, a)
    decreases |a|
  {
    if a != [] && b != [] && a[0] == b[0] {
      LexLeTotal(a[1..], b[1..]);
    }
  }

  lemma {:induction false} LexLeTransitive(a: string, b: string, c: string)
    requires LexLe(a, b) && LexLe(b, c)
    ensures LexLe(a, c)
    decreases |a|
  {
    if a != [] && b != [] && c != [] && a[0] == b[0] && b[0] == c[0] {
      LexLeTransitive(a[1..], b[1..], c[1..]);
    }
  }

  lemma {:induction false} LexLeAntisymmetric(a: string, b: string)
    requires LexLe(a, b) && LexLe(b, a)
    ensures a == b
    decreases |a|
  {
    if a != [] {
      LexLeAntisymmetric(a[1..], b[1..]);
      assert a == [a[0]] + a[1..];
      assert b == [b[0]] + b[1..];
    }
  }

  /** The table order on items: by sort key. */
  function ByDate(a: WatchItem, b: WatchItem): bool {
    LexLe(SortKey(a), SortKey(b))
  }

  lemma ByDateTotalPreorder()
    ensures TotalPreorder(ByDate)
  {
    forall a: WatchItem, b: WatchItem ensures ByDate(a, b) || ByDate(b, a) {
      LexLeTotal(SortKey(a), SortKey(b));
    }
    forall a: WatchItem, b: WatchItem, c: WatchItem | ByDate(a, b) && ByDate(b, c) ensures ByDate(a, c) {
      LexLeTransitive(SortKey(a), SortKey(b), SortKey(c));
    }
  }

  /** Two items are tied in the table order exactly when their keys are equal. */
  lemma TiedIffSameKey(a: WatchItem, b: WatchItem)
    ensures ByDate(a, b) && ByDate(b, a) <==> SortKey(a) == SortKey(b)
  {
    if ByDate(a, b) && ByDate(b, a) {
      LexLeAntisymmetric(SortKey(a), SortKey(b));
    }
    if SortKey(a) == SortKey(b) {
      LexLeTotal(SortKey(a), SortKey(a));
    }
  }

  /** The rows of the table, in the order `_refresh_table` lists them. */
  function TableRows(items: seq<WatchItem>): (r: seq<WatchItem>)
    ensures multiset(r) == multiset(items)
  {
    Sort(items, ByDate)
  }

  /** The table is ordered by key, and items with equal keys -- which are
      exactly the tied ones -- keep their list order. */
  lemma TableRowsOrdered(items: seq<WatchItem>, e: WatchItem)
    ensures forall i, j | 0 <= i < j < |TableRows(items)| ::
      LexLe(SortKey(TableRows(items)[i]), SortKey(TableRows(items)[j]))
    ensures Ties(TableRows(items), e, ByDate) == Ties(items, e, ByDate)
  {
    ByDateTotalPreorder();
    SortSorted(items, ByDate);
    SortKeepsTies(items, e, ByDate);
  }

  /** Rows whose key starts with a digit -- ISO dates, and undated items under
      "9999-99-99" -- come before rows dated "N/A", since "N/A" is a real key. */
  lemma DigitKeysBeforeNotAvailable(a: WatchItem, b: WatchItem)
    requires SortKey(a) != [] && '0' <= SortKey(a)[0] <= '9'
    requires b.earningsDate == Some(NotAvailable)
    ensures ByDate(a, b) && !ByDate(b, a)
  {
    assert SortKey(b) == NotAvailable;
    assert NotAvailable[0] == 'N';
  }

  /** An undated item's key starts with a digit. */
  lemma UndatedKeyIsDigits(a: WatchItem)
    requires !Truthy(a.earningsDate)
    ensures SortKey(a) != [] && '0' <= SortKey(a)[0] <= '9'
  {
  }

  /** An item gets a calendar mark when it has a date other than "N/A". */
  predicate HasCalendarEvent(item: WatchItem): (b: bool)
    ensures b ==> Truthy(item.earningsDate) && SortKey(item) == item.earningsDate.value && SortKey(item) != NotAvailable
    ensures !Truthy(item.earningsDate) || item.earningsDate == Some(NotAvailable) ==> !b
  {
    Truthy(item.earningsDate) && item.earningsDate.value != NotAvailable
  }

  /** A calendar mark: the day, the text shown and the tag. */
  datatype CalendarEvent = CalendarEvent(date: string, text: string, tag: string)

  /** `_paint_calendar_events`: one mark per dated item, in list order. */
  function CalendarEvents(items: seq<WatchItem>): (r: seq<CalendarEvent>)
    ensures |r| <= |items|
    ensures r == [] <==> forall i | 0 <= i < |items| :: !HasCalendarEvent(items[i])
    decreases |items|
  {
    if items == [] then []
    else
      var x := items[0];
      (if HasCalendarEvent(x)
       then [CalendarEvent(x.earningsDate.value, x.ticker + " " + x.marketSession, x.ticker)]
       else [])
      + CalendarEvents(items[1..])
  }

  /** Marks are made exactly for the dated items: each mark comes from such an
      item, and each such item has its mark. */
  lemma {:induction false} CalendarEventsExact(items: seq<WatchItem>, x: WatchItem)
    ensures HasCalendarEvent(x) && x in items ==>
      CalendarEvent(x.earningsDate.value, x.ticker + " " + x.marketSession, x.ticker) in CalendarEvents(items)
    ensures forall ev | ev in CalendarEvents(items) ::
      exists i | 0 <= i < |items| :: HasCalendarEvent(items[i]) && ev.date == items[i].earningsDate.value
                                     && ev.text == items[i].ticker + " " + items[i].marketSession
                                     && ev.tag == items[i].ticker
    decreases |items|
  {
    if items != [] {
      CalendarEventsExact(items[1..], x);
      forall ev | ev in CalendarEvents(items)
        ensures exists i | 0 <= i < |items| :: HasCalendarEvent(items[i]) && ev.date == items[i].earningsDate.value
                                               && ev.text == items[i].ticker + " " + items[i].marketSession
                                               && ev.tag == items[i].ticker
      {
        if ev !in CalendarEvents(items[1..]) {
          assert HasCalendarEvent(items[0]) && ev.date == items[0].earningsDate.value;
        } else {
          var i :| 0 <= i < |items[1..]| && HasCalendarEvent(items[1..][i])
                   && ev.date == items[1..][i].earningsDate.value && ev.tag == items[1..][i].ticker;
          assert items[i + 1] == items[1..][i];
        }
      }
    }
  }

  /** The items whose earnings fall on `day`, in list order: the calendar's
      day view and the notifications for today both use this filter. */
  function ItemsOn(items: seq<WatchItem>, day: string): (r: seq<WatchItem>)
    ensures |r| <= |items|
    ensures forall i | 0 <= i < |r| :: r[i].earningsDate == Some(day)
    decreases |items|
  {
    if items == [] then []
    else (if items[0].earningsDate == Some(day) then [items[0]] else []) + ItemsOn(items[1..], day)
  }

  lemma {:induction false} ItemsOnMembership(items: seq<WatchItem>, day: string, x: WatchItem)
    ensures x in ItemsOn(items, day) <==> x in items && x.earningsDate == Some(day)
    decreases |items|
  {
    if items != [] {
      ItemsOnMembership(items[1..], day, x);
      assert items == [items[0]] + items[1..];
    }
  }

  /** The filter keeps list order: on two parts of a list it gives the
      matches of the first part, then those of the second. */
  lemma {:induction false} ItemsOnAppend(a: seq<WatchItem>, b: seq<WatchItem>, day: string)
    ensures ItemsOn(a + b, day) == ItemsOn(a, day) + ItemsOn(b, day)
    decreases |a|
  {
    if a == [] {
      assert a + b == b;
    } else {
      assert (a + b)[0] == a[0];
      assert (a + b)[1..] == a[1..] + b;
      ItemsOnAppend(a[1..], b, day);
    }
  }

  /** A call that returns a value or raises. */
  datatype Attempt<T> = Raised | Returned(value: T)

  /** Position of the first item with ticker `t`, `|items|` when there is none. */
  function FindTicker(items: seq<WatchItem>, t: string): (k: nat)
    ensures k <= |items|
    ensures forall j | 0 <= j < k :: items[j].ticker != t
    ensures k < |items| ==> items[k].ticker == t
    decreases |items|
  {
    if items == [] || items[0].ticker == t then 0 else 1 + FindTicker(items[1..], t)
  }

  /** The download of `url` for `t` returns a non-empty path whose analysis returns. */
  predicate DownloadSucceeds(
    t: string,
    url: string,
    download: (string, string) -> Attempt<Option<string>>,
    analyze: (string, string) -> Attempt<Option<string>>)
  {
    && download(t, url).Returned?
    && Truthy(download(t, url).value)
    && analyze(download(t, url).value.value, t).Returned?
  }

  /** Whether `_download_and_analyze` stores a path, and which: the typed
      ticker must be non-empty and listed with a non-empty IR address, the
      download must return a non-empty path and the analysis must not raise. */
  function DownloadedPath(
    items: seq<WatchItem>,
    t: string,
    download: (string, string) -> Attempt<Option<string>>,
    analyze: (string, string) -> Attempt<Option<string>>)
    : (r: Option<string>)
    ensures r.Some? ==> Truthy(r)
    ensures r.Some? ==> var k := FindTicker(items, t);
      && t != [] && k < |items| && Truthy(items[k].irUrl)
      && download(t, items[k].irUrl.value) == Returned(r)
      && analyze(r.value, t).Returned?
    ensures var k := FindTicker(items, t);
      (t != [] && k < |items| && Truthy(items[k].irUrl) && DownloadSucceeds(t, items[k].irUrl.value, download, analyze)) ==>
        r == download(t, items[k].irUrl.value).value
  {
    var k := FindTicker(items, t);
    if t == [] || k == |items| || !Truthy(items[k].irUrl) then None
    else
      match download(t, items[k].irUrl.value)
      case Raised => None
      case Returned(pdf) =>
        if !Truthy(pdf) then None
        else if analyze(pdf.value, t).Raised? then None
        else pdf
  }

  /** `_download_and_analyze`: the first item with the typed ticker records
      the downloaded PDF's path; in every other case the list is unchanged. */
  function RecordDownload(
    items: seq<WatchItem>,
    targetInput: string,
    download: (string, string) -> Attempt<Option<string>>,
    analyze: (string, string) -> Attempt<Option<string>>)
    : (r: seq<WatchItem>)
    ensures |r| == |items|
    ensures var t := NormalizeTicker(targetInput);
      t == [] || FindTicker(items, t) == |items| || !Truthy(items[FindTicker(items, t)].irUrl) ==> r == items
    ensures var t := NormalizeTicker(targetInput);
      forall i | 0 <= i < |items| && i != FindTicker(items, t) :: r[i] == items[i]
    ensures forall i | 0 <= i < |items| && r[i] != items[i] ::
      && r[i] == items[i].(lastPdfPath := r[i].lastPdfPath)
      && Truthy(r[i].lastPdfPath)
      && items[i].ticker == NormalizeTicker(targetInput)
      && Truthy(items[i].irUrl)
      && download(NormalizeTicker(targetInput), items[i].irUrl.value) == Returned(r[i].lastPdfPath)
      && analyze(r[i].lastPdfPath.value, NormalizeTicker(targetInput)).Returned?
  {
    var t := NormalizeTicker(targetInput);
    match DownloadedPath(items, t, download, analyze)
    case None => items
    case Some(path) =>
      var k := FindTicker(items, t);
      items[k := items[k].(lastPdfPath := Some(path))]
  }

  /** A successful download and analysis records the returned path on the
      first item with the typed ticker, and on no other item. */
  lemma DownloadRecorded(
    items: seq<WatchItem>,
    targetInput: string,
    download: (string, string) -> Attempt<Option<string>>,
    analyze: (string, string) -> Attempt<Option<string>>)
    ensures var t := NormalizeTicker(targetInput);
      var k := FindTicker(items, t);
      (t != [] && k < |items| && Truthy(items[k].irUrl) && DownloadSucceeds(t, items[k].irUrl.value, download, analyze)) ==>
        RecordDownload(items, targetInput, download, analyze)
          == items[k := items[k].(lastPdfPath := download(t, items[k].irUrl.value).value)]
  {
  }

  /** A failed or empty download, or an analysis that raises, records nothing. */
  lemma NothingRecordedOnFailure(
    items: seq<WatchItem>,
    targetInput: string,
    download: (string, string) -> Attempt<Option<string>>,
    analyze: (string, string) -> Attempt<Option<string>>)
    requires var t := NormalizeTicker(targetInput);
      var k := FindTicker(items, t);
      k < |items| && Truthy(items[k].irUrl) ==>
        || download(t, items[k].irUrl.value).Raised?
        || !Truthy(download(t, items[k].irUrl.value).value)
        || analyze(download(t, items[k].irUrl.value).value.value, t).Raised?
    ensures RecordDownload(items, targetInput, download, analyze) == items
  {
  }
}
